=== FILE: README.md ===
# Agent documentation generator — a Dafny model

This project models the pure core of `scripts/generate-docs.py`. That script reads
Markdown agent definitions and writes an `AGENTS.md` catalogue. The model covers:

- the category taxonomy and its glob-like name patterns (first match wins, with an
  `Uncategorized` fallback);
- the fallback front-matter parser: the `^---\s*\n(.*?)\n---` header block, then one
  `key: value` entry per line, where the last duplicate wins;
- trigger-phrase extraction: the first four `"..."` phrases of the `## Trigger`
  section, re-quoted and joined by `", "`;
- `parse_agent_file` minus the file read: defaults, `.md` removal from the name,
  and the category taken from the file stem;
- the collection step: local documents first, then external ones except the README;
- the whole rendered document as a list of lines:
  - the overview counts;
  - the category index with its anchors, in taxonomy order;
  - the quick-reference table, sorted by filename, with descriptions cut to 55
    characters plus `...`;
  - one section per populated category, each agent with its metadata line when that
    line is not empty;
  - the newline join.

Modules, one per concern:

- `Wrappers`: `Option` and `Present`, which keeps the present values of a sequence.
- `Strings`: the Python `str` operations used: `strip`, `partition`, `split`,
  `'\n'.join`, `replace`, ASCII `lower`, code-point comparison, and decimal formatting.
- `Categories`: `CATEGORIES`, `match_pattern`, `get_category`.
- `FrontMatter`: the header-block regex, the line parser and the map fold.
- `Triggers`: the `findall` scan and `extract_triggers`.
- `Agent`: the record, `parse_agent_file` and the collection of local and external files.
- `Sorting`: the stable sort by filename.
- `Grouping`: `by_category`, category ranks and the display order.
- `Render`: anchors, truncation, the metadata line, quick-reference rows and agent blocks.
- `Document`: the overview, the index, the sections, the whole document and its line
  structure.

Three behaviours of the code are easy to misread. The model follows the code:

- Quotes are stripped fully. `value.strip().strip('"\'')` removes every leading and
  trailing quote character, not one enclosing pair.
- `.md` is removed everywhere. `name.replace('.md', '')` deletes every occurrence found
  left to right, not only a suffix (`Agent.CleanNameJoin`). One pass can even leave `.md` behind
  (`Agent.CleanNameCanLeaveExtension`).
- The README is skipped only among the external documents. A local `README.md` is
  excluded only when its header is empty.

## Model

| member | source | states |
|---|---|---|
| Categories.AllCategories | scripts/generate-docs.py:22-36 | the taxonomy's 13 categories in declaration order, with `Uncategorized` appended last |
| Categories.CategoryNamesDistinct | scripts/generate-docs.py:22-36 | no two categories share a name, so grouping by name and by (glyph, name) agree |
| Categories.MatchPattern | scripts/generate-docs.py:39-46 | a leading `*` matches exactly the names ending in the rest of the pattern; otherwise a trailing `*` matches exactly the names starting with the rest; otherwise only the pattern itself matches |
| Categories.StarMatchesEverything | scripts/generate-docs.py:41-42 | the pattern `*` matches every name |
| Categories.PlainPatternIsEquality | scripts/generate-docs.py:45-46 | a pattern without `*` matches a name exactly when it equals it |
| Categories.AnyPatternMatches | scripts/generate-docs.py:52-53 | true exactly when some pattern of the list matches |
| Categories.FirstMatchFrom | scripts/generate-docs.py:51-54 | the first rule from a position on that has a matching pattern, and none before it; none when no rule matches |
| Categories.GetCategory | scripts/generate-docs.py:49-55 | always a taxonomy category; `Uncategorized` exactly when no rule matches; a rule's category only if that rule matches and no earlier rule does |
| Categories.EarlierRuleWins | scripts/generate-docs.py:51-54 | a matching rule yields its own category or an earlier rule's |
| Categories.FirstMatchingRule | scripts/generate-docs.py:51-54 | the first matching rule decides the category |
| Categories.PerformanceOrchestratorIsPerformance | scripts/generate-docs.py:49-55 | `performance-orchestrator` is Performance, because that rule comes before Orchestration |
| Categories.SecurityConfiguratorIsOrchestration | scripts/generate-docs.py:49-55 | `security-configurator` is Orchestration, although `security-*` also matches it |
| Categories.UnknownStemIsUncategorized | scripts/generate-docs.py:55 | a stem no pattern mentions falls back to `Uncategorized` |
| FrontMatter.HeaderBlock | scripts/generate-docs.py:61-63 | no block unless the text starts with `---`; a block found is the body of an opening marker, whitespace ending in a newline, the body, and a closing `\n---`; the body holds no `\n---` |
| FrontMatter.BlockAfterOpening | scripts/generate-docs.py:61 | the greedy `\s*` followed by a lazy group: what it captures has the header shape and holds no closing marker |
| FrontMatter.HeaderBlockComplete | scripts/generate-docs.py:61-63 | every text of the header shape has a block: the regex matches exactly the header shape |
| FrontMatter.HeaderBlockRoundTrip | scripts/generate-docs.py:61-65 | `---`, a newline, a body free of `\n---` whose first character is not whitespace, and a closing marker gives back that body; the first-character condition is needed, because the greedy `\s*` swallows leading blank lines of the body |
| FrontMatter.NoClosingNoEntries | scripts/generate-docs.py:61-63 | a document with no closing `\n---` anywhere has no header entries |
| FrontMatter.ParseLine | scripts/generate-docs.py:66-72 | a line gives an entry exactly when its stripped text contains `:` and does not start with `#` |
| FrontMatter.ParseKeptLine | scripts/generate-docs.py:68-71 | the entry's key is the stripped text before the first `:`; its value is the stripped text after it, with all outer quote characters removed |
| FrontMatter.ParsedEntryShape | scripts/generate-docs.py:67-71 | a parsed key has no `:` and no outer whitespace; a parsed value has no outer quote |
| FrontMatter.ParseLineRoundTrip | scripts/generate-docs.py:66-72 | the line `key: value` of a well-formed entry parses back to that entry |
| FrontMatter.FoldLinesLastWins | scripts/generate-docs.py:66-72 | after the fold, a key holds the value of the last line that has an entry for it; keys no line mentions keep their earlier value |
| FrontMatter.ParseBasic | scripts/generate-docs.py:58-73 | the empty map when the text does not start with `---` or has no header block |
| FrontMatter.ParseBasicEntries | scripts/generate-docs.py:65-73 | a key is present exactly when some line of the block gives it an entry, and its value is the last such entry's |
| FrontMatter.ParseBasicRoundTrip | scripts/generate-docs.py:58-73 | a header written from well-formed entries parses back to their map, later duplicates winning |
| Triggers.Phrases | scripts/generate-docs.py:100 | every phrase found is non-empty, free of `"` and occurs quoted in the text |
| Triggers.QuotedFirst | scripts/generate-docs.py:100 | a quoted phrase at the front is found first, and the scan resumes after its closing quote |
| Triggers.SkipQuoteFree | scripts/generate-docs.py:100 | text without quotes contributes no phrase |
| Triggers.PhrasesIgnoreStrip | scripts/generate-docs.py:98-100 | stripping the section text never changes the phrases found in it |
| Triggers.QuoteJoinRoundTrip | scripts/generate-docs.py:102 | scanning `", "`-joined quoted phrases finds exactly those phrases, in order |
| Triggers.QuoteJoin | scripts/generate-docs.py:102 | the phrases, each between double quotes, joined by `", "` |
| Triggers.ExtractTriggers | scripts/generate-docs.py:93-103 | none without a section or without a phrase in it; otherwise the section's first one to four phrases, each re-quoted, joined by `", "`, and a text whose own phrases are exactly those |
| Triggers.FooOrBarExample | scripts/generate-docs.py:93-103 | the section `"foo" or "bar"` gives `"foo", "bar"` |
| Agent.Get | scripts/generate-docs.py:134-140 | a present key's value, else the default |
| Agent.ParseAgentFile | scripts/generate-docs.py:114-143 | no record exactly when the header map is empty; a record's filename is the stem, its category that of the stem, its provenance flag the caller's, its triggers the section's; its name is the `name` entry or else the stem, with every `.md` removed; description, model, tools and version are their entries or else `No description`, `-`, empty and empty; tags are present exactly when the header has `tags` |
| Agent.ParseWrittenAgent | scripts/generate-docs.py:114-143 | a document written from well-formed header entries parses to the record of those entries |
| Agent.DescriptionRoundTrip | scripts/generate-docs.py:134 | the description written in the header is the record's description when no later entry redefines it |
| Agent.NameFromStem | scripts/generate-docs.py:119-123 | without a `name` entry, the record's name is the stem when the stem contains no `.md` |
| Agent.CleanNameDropsExtension | scripts/generate-docs.py:122-123 | removing `.md` from a name followed by `.md` gives back the name, when the name contains no `.md` itself |
| Agent.CleanNameSkipsFree | scripts/generate-docs.py:123 | a stretch free of `.md` is kept, the `.md` after it is removed, and the clean-up carries on with the rest |
| Agent.CleanNameJoin | scripts/generate-docs.py:123 | pieces free of `.md` glued with `.md` come back glued together: every separating occurrence is removed, not only the first |
| Agent.TwoExtensionsRemoved | scripts/generate-docs.py:123 | `a.mdb.md` becomes `ab` |
| Agent.CleanNameCanLeaveExtension | scripts/generate-docs.py:123 | the single left-to-right pass turns `.m.mdd` into `.md` |
| Agent.ParseAll | scripts/generate-docs.py:151-154 | at most one record per file; each has the caller's provenance flag and the category of its filename; its order and count are fixed by Agent.ParseAllAppend, Agent.ParseAllSingle and Agent.ParseAllCount |
| Agent.ParseAllAppend | scripts/generate-docs.py:151-154 | parsing two runs of files one after the other gives the records of the first run followed by those of the second |
| Agent.ParseAllSingle | scripts/generate-docs.py:152-154 | one file contributes its record when it parses and nothing when it does not |
| Agent.ParseAllCount | scripts/generate-docs.py:151-154 | as many records are collected as there are files with header entries |
| Wrappers.PresentAppend | scripts/generate-docs.py:151-154 | keeping the present values of two runs keeps those of the first run, then those of the second |
| Wrappers.PresentSingle | scripts/generate-docs.py:153-154 | one present value is kept and one absent value is dropped |
| Agent.ParseAllMembers | scripts/generate-docs.py:151-154 | a record is collected exactly when some file parses to it |
| Agent.ParseAllEmpty | scripts/generate-docs.py:151-154 | nothing is collected exactly when every file's header map is empty |
| Agent.WithoutReadme | scripts/generate-docs.py:160-162 | keeps exactly the files whose stem is not `README` |
| Agent.WithoutReadmeAppend | scripts/generate-docs.py:159-162 | the filter of two runs of files is the filter of the first followed by the filter of the second, so the order is kept |
| Agent.WithoutReadmeSingle | scripts/generate-docs.py:160-162 | one file is dropped when its stem is `README` and kept otherwise |
| Agent.Collect | scripts/generate-docs.py:150-166 | the external count is the number of external records; local records come before external ones; no external record is the README; every category is a taxonomy category |
| Agent.CollectCount | scripts/generate-docs.py:150-166 | the collection holds one record per local file with header entries plus one per non-README external file with header entries, and the external count is the second number |
| Agent.CollectMembers | scripts/generate-docs.py:150-166 | a record is collected exactly when a local file parses to it as local, or a non-README external file parses to it as external |
| Agent.CollectEmpty | scripts/generate-docs.py:150-168 | the collection is empty exactly when no local document, and no external document other than the README, has header entries |
| Agent.LocalsThenExternals | scripts/generate-docs.py:150-166 | appending the external records counts exactly them as external and keeps the local ones first |
| Sorting.SortByFilename | scripts/generate-docs.py:219 | a permutation of the records, ordered by filename |
| Sorting.SortIsStable | scripts/generate-docs.py:219 | records with equal filenames keep their relative order |
| Sorting.SortKeepsSorted | scripts/generate-docs.py:233 | sorting an already sorted list changes nothing |
| Strings.LexLeTotal | scripts/generate-docs.py:219 | any two filenames are comparable under code-point order |
| Strings.LexLeTrans | scripts/generate-docs.py:219 | code-point order is transitive |
| Grouping.Rank | scripts/generate-docs.py:180-182 | `Uncategorized` ranks 999; a name in the taxonomy ranks at its row; any other name ranks 998 |
| Grouping.RanksIncrease | scripts/generate-docs.py:180-182 | ranks strictly increase along the taxonomy, with `Uncategorized` last |
| Grouping.InCategory | scripts/generate-docs.py:175-177 | `by_category[c]` holds exactly the records of category `c`, and no more of them than the list has |
| Grouping.InCategoryCounts | scripts/generate-docs.py:175-177 | each record of category `c` occurs in the group as often as in the list, every other record not at all, so the group's size is the number of `c` records |
| Grouping.InCategoryInOrder | scripts/generate-docs.py:175-177 | the group is a subsequence of the list: records are appended in collection order |
| Grouping.KeepPopulated | scripts/generate-docs.py:175-182 | keeps exactly the categories that have a record |
| Grouping.DisplayOrderCharacterised | scripts/generate-docs.py:174-182 | the displayed categories are exactly the populated ones, in strictly increasing rank |
| Grouping.SortedKeysAreDisplayOrder | scripts/generate-docs.py:182 | any rank-sorted listing of the populated categories is the display order |
| Grouping.GroupCountsAddUp | scripts/generate-docs.py:175-177 | the group sizes of the displayed categories add up to the number of records |
| Grouping.EachAgentInOneGroup | scripts/generate-docs.py:175-177 | every record sits in the group of its own category, which is displayed, and in no other |
| Render.Anchor | scripts/generate-docs.py:210 | the slug holds no space, no `&` and no upper-case ASCII letter, and is no longer than the name; for a name without `&` it has the name's length and each position holds `-` for a space and the lowered character otherwise |
| Render.PlainWordAnchor | scripts/generate-docs.py:210 | a single word links to its lowered form |
| Render.DjangoAnchor | scripts/generate-docs.py:210 | `Django` links to `#django` |
| Render.PlainNameIsItsAnchor | scripts/generate-docs.py:210 | a lower-case name without spaces or `&` is its own anchor |
| Render.SpacedAnchor | scripts/generate-docs.py:210 | two words joined by a space give their lower-cased forms joined by `-` |
| Render.AmpersandAnchor | scripts/generate-docs.py:210 | `a & b` gives `a--b` in lower case, because the `&` disappears between two dashes |
| Render.DataAndMlAnchor | scripts/generate-docs.py:210 | `Data & ML` links to `#data--ml` |
| Render.Truncate | scripts/generate-docs.py:220 | a description of at most 55 characters is kept verbatim; a longer one becomes its first 55 characters followed by `...` |
| Render.TruncateIdempotent | scripts/generate-docs.py:220 | truncating twice is truncating once |
| Render.TruncateFixedPoints | scripts/generate-docs.py:220 | truncation leaves a description unchanged exactly when it is at most 55 characters long, or 58 long and ending in `...` |
| Render.QuickRow | scripts/generate-docs.py:220-222 | the Markdown table row of four cells: the filename as code, the shortened description, the category's glyph and name, and `external` or `custom` |
| Render.TableRowCells | scripts/generate-docs.py:222 | splitting a row at `|` gives back its cells, each with its blanks, when no cell holds a `|` |
| Render.QuickRowCells | scripts/generate-docs.py:220-222 | a record whose fields hold no `|` splits back into its four columns |
| Render.QuickRowSource | scripts/generate-docs.py:221-222 | the source column reads `external` exactly for external records and `custom` exactly for local ones |
| Render.QuickRows | scripts/generate-docs.py:219-222 | one row per record, each the row of the record at that position in filename order |
| Render.QuickRowsCoverAgents | scripts/generate-docs.py:219-222 | every record has its row, and the rows follow non-decreasing filenames |
| Render.MetaItems | scripts/generate-docs.py:241-249 | one item for each shown field, in the order model, triggers, version, source; the model item appears exactly when the model is neither empty nor `-`, the triggers item exactly when the triggers are present and non-empty, the version item exactly when the version is non-empty, and the source item exactly when the record is external |
| Render.ItemsDiffer | scripts/generate-docs.py:243-249 | items of different kinds never coincide |
| Render.MetaLine | scripts/generate-docs.py:241-253 | no line exactly when the model is empty or `-`, there are no triggers, the version is empty and the record is local; otherwise it is the items of Render.MetaItems joined by ` | `, so it starts with the model item when shown and ends with the source item when external |
| Render.DefaultsShowNoMetadata | scripts/generate-docs.py:241-253 | a local record without model, version or triggers gets no metadata line |
| Render.ExternalShowsSource | scripts/generate-docs.py:248-252 | an external record always gets a metadata line ending with the source notice |
| Render.AgentHeading | scripts/generate-docs.py:234-235 | `### filename` for a local record, and the same followed by the badge for an external one |
| Render.AgentBlock | scripts/generate-docs.py:235-256 | heading, blank, quoted description, blank, then the metadata line and a blank when there is one, then `---` and a blank: eight lines or six, each line stated |
| Render.Blocks | scripts/generate-docs.py:233-256 | between six and eight lines per record; its content is fixed by Render.BlocksAppend, Render.BlocksSingle and Render.BlockOfEach |
| Render.BlocksAppend | scripts/generate-docs.py:233-256 | the blocks of two runs of records are the blocks of the first run followed by those of the second |
| Render.BlocksSingle | scripts/generate-docs.py:233-256 | one record gives exactly its own block |
| Render.BlockOfEach | scripts/generate-docs.py:233-256 | the `k`-th record's block sits between the blocks of the records before and after it, so its heading appears in the lines |
| Render.SectionMembers | scripts/generate-docs.py:227-233 | the category's records, sorted by filename, as a permutation of its group |
| Render.EachAgentInItsSection | scripts/generate-docs.py:226-233 | every record is listed in its own category's section and in no other |
| Render.SectionSizesAddUp | scripts/generate-docs.py:226-233 | the sections list as many records as were collected |
| Render.JoinNoNewline | scripts/generate-docs.py:252 | joining newline-free items with a newline-free separator gives a newline-free line |
| Document.CustomIsLocal | scripts/generate-docs.py:172 | custom and external counts add up to the total |
| Document.OverviewLines | scripts/generate-docs.py:194-203 | nine lines with external agents, eight without |
| Document.ExternalRowIffExternal | scripts/generate-docs.py:200-201 | the External row is present exactly when the external count is positive |
| Document.OverviewCounts | scripts/generate-docs.py:198-199 | the Total row counts all records, the Custom row the local ones |
| Document.OverviewCategoryCount | scripts/generate-docs.py:202 | the Categories row counts the distinct categories of the records |
| Document.CategoriesRowCountsKinds | scripts/generate-docs.py:202-208 | as many categories are displayed as there are distinct categories among the records |
| Document.IndexEntries | scripts/generate-docs.py:208-211 | one entry per displayed category, carrying the size of its group, which Grouping.InCategoryCounts fixes |
| Document.Markdown | scripts/generate-docs.py:168-259 | nothing is written exactly when there is no record; otherwise the document starts with the title |
| Document.NothingToDocument | scripts/generate-docs.py:150-170 | no document exactly when no local document, and no external one other than the README, has header entries |
| Document.DocumentPlain | scripts/generate-docs.py:185-256 | with single-line fields, no produced line contains a line break |
| Document.LinesRoundTrip | scripts/generate-docs.py:259 | with single-line fields, splitting the written text at newlines gives back exactly the produced lines |
| Strings.StripSetExact | scripts/generate-docs.py:67-71 | stripping removes exactly the surrounding run of the given characters |
| Strings.StripSetIdempotent | scripts/generate-docs.py:67-71 | stripping twice is stripping once |
| Strings.Partition | scripts/generate-docs.py:69 | the text is the part before the first separator, the separator, and the rest |
| Strings.Split | scripts/generate-docs.py:66 | the pieces are separator-free and joined by it give back the text |
| Strings.SplitJoin | scripts/generate-docs.py:66 | splitting a join of separator-free pieces gives back the pieces |
| Strings.RemoveAll | scripts/generate-docs.py:123 | removal never lengthens the text, shortens it when the pattern occurs, and leaves it unchanged when it does not; that it removes every occurrence met left to right is stated for `.md` by Agent.CleanNameSkipsFree and Agent.CleanNameJoin |
| Strings.DecimalRoundTrip | scripts/generate-docs.py:198 | a formatted count reads back as the same number |

## Left out

- File I/O and directory listing. Reading files, `glob`, the `exists` checks and
  writing `AGENTS.md` are outside the model (scripts/generate-docs.py:109, 151-166, 259).
  The model takes the files as two sequences of (stem, text, trigger section), local
  and external, already in the sorted order the script lists them.
- The failed-read branch of `parse_agent_file`, which prints a warning and skips the file.
  A file that cannot be read is simply absent from the input.
- The PyYAML branch of `parse_front_matter`. It calls a library that is not part of this
  model, so the basic parser is the one modelled. Without PyYAML, `parse_front_matter`
  and `parse_front_matter_basic` coincide.
- The search for the `## Trigger` section: a case-insensitive regex with a lookahead.
  The section text is an input, `None` when there is no section. The scan for quoted
  phrases inside it is modelled.
- `print`, the status line, `main` and its exit codes.
- Render.Anchor: `str.lower()` is modelled for ASCII letters only, because every
  category name is ASCII.
- Document.LinesRoundTrip: holds only when the rendered fields contain no newline. A
  header value cannot contain one, but a trigger phrase found across lines can, and such
  a phrase would break the line structure.
- Document.GenerateDocs: its own contract says only that the output starts with the
  title. When output exists is stated separately by Document.NothingToDocument.
- Tools and tags are carried through but never rendered, as in the script. Tags keep the
  raw text after `tags:`, because the basic parser produces strings only.

=== FILE: agent.dfy ===
/**
 Agent records: what the generator keeps of one agent document, and the
 collection of local and external documents into the list it renders.

 A document is given by its file stem, its text, and the text of its
 `## Trigger` section when it has one. Reading the file, listing the
 directories and locating the section are outside this model.
 */
module Agent {
  import opened Strings
  import opened Wrappers
  import opened Categories
  import opened FrontMatter
  import opened Triggers

  /** One agent document, after reading. */
  datatype AgentFile = AgentFile(stem: string, content: string, triggerSection: Option<string>)

  /** `meta.get('tags', [])`: the line parser yields the raw text after `tags:`,
      and an absent key gives an empty list. */
  datatype Tags = NoTags | TagText(text: string)

  /** The per-agent dictionary `parse_agent_file` returns. */
  datatype Record = Record(
    filename: string,
    name: string,
    description: string,
    model: string,
    tools: string,
    category: Category,
    triggers: Option<string>,
    version: string,
    tags: Tags,
    isExternal: bool
  )

  const Extension: string := ".md"
  const NoDescription: string := "No description"
  const NoModel: string := "-"

  /** The stem the external directory's own README has; it is not an agent. */
  const ReadmeStem: string := "README"

  /** `meta.get(key, default)` */
  function Get(meta: map<string, string>, key: string, default: string): (r: string)
    ensures key in meta ==> r == meta[key]
    ensures key !in meta ==> r == default
  {
    if key in meta then meta[key] else default
  }

  /** `name.replace('.md', '')` */
  function CleanName(name: string): string {
    RemoveAll(name, Extension)
  }

  /** `parse_agent_file`: `None` when the document has no header entries. */
  function ParseAgentFile(file: AgentFile, isExternal: bool): (r: Option<Record>)
    ensures r.None? <==> ParseBasic(file.content) == map[]
    ensures !StartsWith(file.content, Opening) ==> r.None?
    ensures r.Some? ==>
              && r.value.filename == file.stem
              && r.value.isExternal == isExternal
              && r.value.category in AllCategories()
              && r.value.category == GetCategory(file.stem)
              && r.value.triggers == ExtractTriggers(file.triggerSection)
    ensures r.Some? ==> ("tags" in ParseBasic(file.content) <==> r.value.tags.TagText?)
    ensures r.Some? ==> var m := ParseBasic(file.content);
              r.value.name == RemoveAll(if "name" in m then m["name"] else file.stem, Extension)
    ensures r.Some? ==> var m := ParseBasic(file.content);
              r.value.description == (if "description" in m then m["description"] else NoDescription)
    ensures r.Some? ==> var m := ParseBasic(file.content);
              r.value.model == (if "model" in m then m["model"] else NoModel)
    ensures r.Some? ==> var m := ParseBasic(file.content);
              r.value.tools == (if "tools" in m then m["tools"] else "")
    ensures r.Some? ==> var m := ParseBasic(file.content);
              r.value.version == (if "version" in m then m["version"] else "")
    ensures r.Some? ==> var m := ParseBasic(file.content);
              r.value.tags == (if "tags" in m then TagText(m["tags"]) else NoTags)
  {
    var meta := ParseBasic(file.content);
    if meta == map[] then None else Some(RecordFrom(meta, file.stem, file.triggerSection, isExternal))
  }

  // ---------------------------------------------------------------------
  // Properties of a single record

  /** The record of a document with header entries `m`: each field is the
      entry for its key, or that key's default. */
  function RecordFrom(m: map<string, string>, stem: string, section: Option<string>, isExternal: bool): Record {
    Record(
      filename := stem,
      name := CleanName(Get(m, "name", stem)),
      description := Get(m, "description", NoDescription),
      model := Get(m, "model", NoModel),
      tools := Get(m, "tools", ""),
      category := GetCategory(stem),
      triggers := ExtractTriggers(section),
      version := Get(m, "version", ""),
      tags := if "tags" in m then TagText(m["tags"]) else NoTags,
      isExternal := isExternal)
  }

  /** A document whose header is written from well-formed entries becomes a
      record whose fields are those entries (the last one for a repeated key),
      with the defaults for the keys it lacks. */
  lemma {:induction false} ParseWrittenAgent(entries: seq<(string, string)>, rest: string, stem: string,
                          section: Option<string>, isExternal: bool)
    requires |entries| > 0
    requires forall i :: 0 <= i < |entries| ==> WellFormedEntry(entries[i].0, entries[i].1)
    ensures ParseAgentFile(AgentFile(stem, WrittenDocument(entries, rest), section), isExternal)
            == Some(RecordFrom(EntriesMap(entries), stem, section, isExternal))
  {
    ParseBasicRoundTrip(entries, rest);
    EntriesMapHasLastKey(entries);
  }

  /** The document an author writes: a header of `key: value` lines, then `rest`. */
  function WrittenDocument(entries: seq<(string, string)>, rest: string): string {
    Opening + "\n" + Join(EntryLines(entries), "\n") + Closing + rest
  }

  /** The last entry's key is always in the reference map. */
  lemma {:induction false} EntriesMapHasLastKey(entries: seq<(string, string)>)
    requires |entries| > 0
    ensures entries[|entries| - 1].0 in EntriesMap(entries)
  {
  }

  /** The description round trip: a header whose only `description` entry is
      `d` yields a record whose description is `d`. */
  lemma {:induction false} DescriptionRoundTrip(before: seq<(string, string)>, d: string, after: seq<(string, string)>,
                             rest: string, stem: string, section: Option<string>)
    requires WellFormedEntry("description", d)
    requires forall i :: 0 <= i < |before| ==> WellFormedEntry(before[i].0, before[i].1)
    requires forall i :: 0 <= i < |after| ==> WellFormedEntry(after[i].0, after[i].1) && after[i].0 != "description"
    ensures var entries := before + [("description", d)] + after;
            var r := ParseAgentFile(AgentFile(stem, WrittenDocument(entries, rest), section), false);
            r.Some? && r.value.description == d
  {
    var entries := before + [("description", d)] + after;
    ParseWrittenAgent(entries, rest, stem, section, false);
    LaterKeysKeepEntry(before + [("description", d)], after, "description");
  }

  /** Appending entries for other keys keeps an earlier key's value. */
  lemma {:induction false} LaterKeysKeepEntry(front: seq<(string, string)>, after: seq<(string, string)>, key: string)
    requires key in EntriesMap(front)
    requires forall i :: 0 <= i < |after| ==> after[i].0 != key
    ensures key in EntriesMap(front + after)
    ensures EntriesMap(front + after)[key] == EntriesMap(front)[key]
    decreases |after|
  {
    if |after| > 0 {
      var all := front + after;
      var init := after[..|after| - 1];
      assert all[..|all| - 1] == front + init;
      assert all[|all| - 1] == after[|after| - 1];
      LaterKeysKeepEntry(front, init, key);
    } else {
      assert front + after == front;
    }
  }

  /** Without a `name` entry the record is named after its file. */
  lemma {:induction false} NameFromStem(file: AgentFile, isExternal: bool)
    requires ParseAgentFile(file, isExternal).Some?
    requires "name" !in ParseBasic(file.content)
    requires !Contains(file.stem, Extension)
    ensures ParseAgentFile(file, isExternal).value.name == file.stem
  {
  }

  /** A name written as `<base>.md` loses the extension, as long as `base`
      does not itself contain `.md`. */
  lemma {:induction false} CleanNameDropsExtension(base: string)
    requires !Contains(base, Extension)
    ensures CleanName(base + Extension) == base
    decreases |base|
  {
    var s := base + Extension;
    if |base| == 0 {
      assert s == Extension;
      assert s[|Extension|..] == [];
    } else {
      assert !OccursAt(s, Extension, 0) by {
        if |base| >= 3 {
          assert s[..3] == base[..3];
          assert !OccursAt(base, Extension, 0);
        } else if |base| == 2 {
          assert s[2] == '.';
        } else {
          assert s[1] == '.';
        }
      }
      assert s[..|Extension|] != Extension;
      assert !Contains(base[1..], Extension) by {
        if Contains(base[1..], Extension) {
          ShiftBack(base, Extension);
        }
      }
      assert s[1..] == base[1..] + Extension;
      CleanNameDropsExtension(base[1..]);
    }
  }

  /** The clean-up keeps a stretch free of `.md`, deletes the `.md` after it,
      and carries on with the rest: every occurrence met left to right goes,
      not only the first. */
  lemma {:induction false} CleanNameSkipsFree(a: string, b: string)
    requires !Contains(a, Extension)
    ensures CleanName(a + Extension + b) == a + CleanName(b)
    decreases |a|
  {
    if |a| == 0 {
      DroppedInFront(a, b);
    } else {
      NoExtensionInFront(a, b);
      CleanNameSkipsFree(a[1..], b);
      SkipStep(a[0], a[1..] + Extension + b, a + Extension + b, a, a[1..], CleanName(b));
    }
  }

  /** With nothing before it, the `.md` in front is removed. */
  lemma {:induction false} DroppedInFront(a: string, b: string)
    requires |a| == 0
    ensures CleanName(a + Extension + b) == a + CleanName(b)
  {
    assert a + Extension + b == Extension + b;
    RemoveAllDrops(b, Extension);
  }

  /** One step of `CleanNameSkipsFree`: the first character `c` of the stretch
      `a` is kept in front of the clean-up of the rest `t` of the text `s`. */
  lemma {:induction false} SkipStep(c: char, t: string, s: string, a: string, tail: string, cleaned: string)
    requires s == [c] + t && a == [c] + tail && !OccursAt(s, Extension, 0)
    requires CleanName(t) == tail + cleaned
    ensures CleanName(s) == a + cleaned
  {
    KeptInFront(c, t, s, tail + cleaned);
    assert [c] + (tail + cleaned) == a + cleaned;
  }

  /** A first character that starts no `.md` stays in front of the clean-up
      of the rest. */
  lemma {:induction false} KeptInFront(c: char, t: string, s: string, cleaned: string)
    requires s == [c] + t && !OccursAt(s, Extension, 0)
    requires CleanName(t) == cleaned
    ensures CleanName(s) == [c] + cleaned
  {
    RemoveAllKeeps(c, t, Extension);
  }

  /** A non-empty stretch free of `.md`, followed by `.md`: no occurrence
      starts at its front, and its tail is free of `.md` as well. */
  lemma {:induction false} NoExtensionInFront(a: string, b: string)
    requires |a| > 0 && !Contains(a, Extension)
    ensures !OccursAt(a + Extension + b, Extension, 0)
    ensures !Contains(a[1..], Extension)
    ensures a + Extension + b == [a[0]] + (a[1..] + Extension + b)
    ensures a == [a[0]] + a[1..]
  {
    var s := a + Extension + b;
    if |a| >= 3 {
      assert s[..3] == a[..3];
      assert !OccursAt(a, Extension, 0);
    } else if |a| == 2 {
      assert s[2] == '.';
    } else {
      assert s[1] == '.';
    }
    if Contains(a[1..], Extension) {
      ShiftBack(a, Extension);
    }
  }

  /** The pieces of a name glued with `.md`, none holding `.md` itself, come
      back glued together: every separating `.md` is removed. */
  lemma {:induction false} CleanNameJoin(parts: seq<string>)
    requires |parts| >= 1
    requires forall i :: 0 <= i < |parts| ==> !Contains(parts[i], Extension)
    ensures CleanName(Join(parts, Extension)) == Concat(parts)
    decreases |parts|
  {
    if |parts| == 1 {
      assert Concat(parts[1..]) == [];
    } else {
      CleanNameSkipsFree(parts[0], Join(parts[1..], Extension));
      CleanNameJoin(parts[1..]);
    }
  }

  /** Two occurrences, one inside and one trailing, both disappear. */
  lemma TwoExtensionsRemoved()
    ensures CleanName("a.mdb.md") == "ab"
  {
    assert !Contains("a", Extension) && !Contains("b", Extension);
    CleanNameJoin(["a", "b", ""]);
    assert Join(["a", "b", ""], Extension) == "a" + Extension + ("b" + Extension + "");
    assert "a" + Extension + ("b" + Extension + "") == "a.mdb.md";
    assert Concat(["a", "b", ""]) == "a" + ("b" + ("" + []));
  }

  /** An occurrence in `s[1..]` is an occurrence in `s`. */
  lemma {:induction false} ShiftBack(s: string, pat: string)
    requires |s| > 0 && Contains(s[1..], pat)
    ensures Contains(s, pat)
  {
    var t := s[1..];
    var i: nat :| i <= |t| && OccursAt(t, pat, i);
    assert s[i + 1..i + 1 + |pat|] == t[i..i + |pat|];
    assert OccursAt(s, pat, i + 1);
  }

  /** A character that does not start an occurrence is kept. */
  lemma {:induction false} RemoveAllKeeps(c: char, t: string, pat: string)
    requires |pat| > 0 && !OccursAt([c] + t, pat, 0)
    ensures RemoveAll([c] + t, pat) == [c] + RemoveAll(t, pat)
  {
    assert ([c] + t)[1..] == t;
  }

  /** An occurrence at the front is removed and the scan resumes after it. */
  lemma {:induction false} RemoveAllDrops(t: string, pat: string)
    requires |pat| > 0
    ensures RemoveAll(pat + t, pat) == RemoveAll(t, pat)
  {
    assert (pat + t)[..|pat|] == pat;
    assert (pat + t)[|pat|..] == t;
  }

  /** One pass of the clean-up removes `.md` from the middle of a name, and
      can leave `.md` behind: removing the inner occurrence of `.m.mdd` joins
      `.m` and `d` into a new one. */
  lemma CleanNameCanLeaveExtension()
    ensures CleanName(".m.mdd") == Extension
  {
    assert !Contains("d", Extension);
    RemoveAllDrops("d", Extension);
    assert Extension + "d" == ".mdd";
    assert !OccursAt(['m'] + ".mdd", Extension, 0) by { assert (['m'] + ".mdd")[0] == 'm'; }
    RemoveAllKeeps('m', ".mdd", Extension);
    assert "m" + ".mdd" == "m.mdd";
    assert !OccursAt(['.'] + "m.mdd", Extension, 0) by { assert (['.'] + "m.mdd")[2] == '.'; }
    RemoveAllKeeps('.', "m.mdd", Extension);
    assert ['.'] + "m.mdd" == ".m.mdd";
  }

  // ---------------------------------------------------------------------
  // Collection

  /** `parse_agent_file` applied to each file. */
  function Parses(files: seq<AgentFile>, isExternal: bool): (ps: seq<Option<Record>>)
    ensures |ps| == |files|
    ensures forall j :: 0 <= j < |files| ==> ps[j] == ParseAgentFile(files[j], isExternal)
  {
    seq(|files|, j requires 0 <= j < |files| => ParseAgentFile(files[j], isExternal))
  }

  /** Every file of `files` that has header entries, as a record, in order:
      the loop that appends each successful parse. */
  function ParseAll(files: seq<AgentFile>, isExternal: bool): (rs: seq<Record>)
    ensures |rs| <= |files|
    ensures forall i :: 0 <= i < |rs| ==> rs[i].isExternal == isExternal
    ensures forall i :: 0 <= i < |rs| ==> rs[i].category == GetCategory(rs[i].filename)
  {
    var ps := Parses(files, isExternal);
    var rs := Present(ps);
    forall i | 0 <= i < |rs|
      ensures rs[i].isExternal == isExternal && rs[i].category == GetCategory(rs[i].filename)
    {
      ParsedFromSome(files, isExternal, rs[i]);
    }
    rs
  }

  /** The number of files that have header entries, each counted once. */
  function CountParsing(files: seq<AgentFile>): (n: nat)
    ensures n <= |files|
    decreases |files|
  {
    if |files| == 0 then 0
    else (if ParseBasic(files[0].content) != map[] then 1 else 0) + CountParsing(files[1..])
  }

  /** Parsing two lists of files one after the other gives the records of the
      first, then those of the second. */
  lemma {:induction false} ParseAllAppend(a: seq<AgentFile>, b: seq<AgentFile>, isExternal: bool)
    ensures ParseAll(a + b, isExternal) == ParseAll(a, isExternal) + ParseAll(b, isExternal)
  {
    assert Parses(a + b, isExternal) == Parses(a, isExternal) + Parses(b, isExternal);
    PresentAppend(Parses(a, isExternal), Parses(b, isExternal));
  }

  /** One file gives its record when it has header entries, and nothing
      otherwise. */
  lemma ParseAllSingle(file: AgentFile, isExternal: bool)
    ensures ParseAll([file], isExternal) ==
              match ParseAgentFile(file, isExternal) case Some(rec) => [rec] case None => []
  {
    assert Parses([file], isExternal) == [ParseAgentFile(file, isExternal)];
    PresentSingle(ParseAgentFile(file, isExternal));
  }

  /** One record per file with header entries: no file is skipped and none
      counted twice. */
  lemma {:induction false} ParseAllCount(files: seq<AgentFile>, isExternal: bool)
    ensures |ParseAll(files, isExternal)| == CountParsing(files)
    decreases |files|
  {
    if |files| > 0 {
      assert files == [files[0]] + files[1..];
      ParseAllAppend([files[0]], files[1..], isExternal);
      ParseAllSingle(files[0], isExternal);
      ParseAllCount(files[1..], isExternal);
    }
  }

  /** A record among the parses is the parse of some file, so it carries that
      file's stem, flag and category. */
  lemma {:induction false} ParsedFromSome(files: seq<AgentFile>, isExternal: bool, rec: Record)
    requires Some(rec) in Parses(files, isExternal)
    ensures exists j :: 0 <= j < |files| && ParseAgentFile(files[j], isExternal) == Some(rec)
    ensures rec.isExternal == isExternal && rec.category == GetCategory(rec.filename)
    ensures exists j :: 0 <= j < |files| && rec.filename == files[j].stem
  {
    var ps := Parses(files, isExternal);
    var j :| 0 <= j < |ps| && ps[j] == Some(rec);
    assert ParseAgentFile(files[j], isExternal) == Some(rec);
  }

  /** The records are exactly the parses of the files that have header entries. */
  lemma {:induction false} ParseAllMembers(files: seq<AgentFile>, isExternal: bool)
    ensures forall rec :: rec in ParseAll(files, isExternal) <==>
              exists j :: 0 <= j < |files| && ParseAgentFile(files[j], isExternal) == Some(rec)
  {
    var ps := Parses(files, isExternal);
    forall rec | rec in ParseAll(files, isExternal)
      ensures exists j :: 0 <= j < |files| && ParseAgentFile(files[j], isExternal) == Some(rec)
    {
      var i :| 0 <= i < |Present(ps)| && Present(ps)[i] == rec;
      ParsedFromSome(files, isExternal, rec);
    }
    forall rec | exists j :: 0 <= j < |files| && ParseAgentFile(files[j], isExternal) == Some(rec)
      ensures rec in ParseAll(files, isExternal)
    {
      var j :| 0 <= j < |files| && ParseAgentFile(files[j], isExternal) == Some(rec);
      PresentComplete(ps, j);
    }
  }

  /** No record comes out exactly when no document has header entries. */
  lemma {:induction false} ParseAllEmpty(files: seq<AgentFile>, isExternal: bool)
    ensures |ParseAll(files, isExternal)| == 0 <==>
              forall j :: 0 <= j < |files| ==> ParseBasic(files[j].content) == map[]
  {
    PresentEmpty(Parses(files, isExternal));
  }

  /** A record's filename is the stem of one of the files. */
  lemma {:induction false} ParseAllStems(files: seq<AgentFile>, isExternal: bool, stem: string)
    requires forall j :: 0 <= j < |files| ==> files[j].stem != stem
    ensures forall i :: 0 <= i < |ParseAll(files, isExternal)| ==> ParseAll(files, isExternal)[i].filename != stem
  {
    var rs := ParseAll(files, isExternal);
    forall i | 0 <= i < |rs|
      ensures rs[i].filename != stem
    {
      ParsedFromSome(files, isExternal, rs[i]);
    }
  }

  /** The agents list of `generate_docs` and how many of them are external. */
  datatype Collection = Collection(agents: seq<Record>, externalCount: nat)

  /** The external directory's files other than its README. */
  function WithoutReadme(files: seq<AgentFile>): (r: seq<AgentFile>)
    ensures |r| <= |files|
    ensures forall i :: 0 <= i < |r| ==> r[i].stem != ReadmeStem && r[i] in files
    ensures forall i :: 0 <= i < |files| && files[i].stem != ReadmeStem ==> files[i] in r
    decreases |files|
  {
    if |files| == 0 then []
    else
      var rest := WithoutReadme(files[1..]);
      assert forall i :: 1 <= i < |files| ==> files[i] == files[1..][i - 1];
      if files[0].stem == ReadmeStem then rest else [files[0]] + rest
  }

  /** Skipping the README commutes with concatenation. */
  lemma {:induction false} WithoutReadmeAppend(a: seq<AgentFile>, b: seq<AgentFile>)
    ensures WithoutReadme(a + b) == WithoutReadme(a) + WithoutReadme(b)
    decreases |a|
  {
    if |a| == 0 {
      assert a + b == b;
    } else {
      assert (a + b)[0] == a[0];
      assert (a + b)[1..] == a[1..] + b;
      WithoutReadmeAppend(a[1..], b);
    }
  }

  /** A single file is dropped exactly when it is the README. */
  lemma WithoutReadmeSingle(file: AgentFile)
    ensures WithoutReadme([file]) == if file.stem == ReadmeStem then [] else [file]
  {
    assert [file][1..] == [];
  }

  /** The number of external records. */
  function CountExternal(rs: seq<Record>): (n: nat)
    ensures n <= |rs|
    decreases |rs|
  {
    if |rs| == 0 then 0 else (if rs[0].isExternal then 1 else 0) + CountExternal(rs[1..])
  }

  /** The records of one source, all local or all external, are counted as such. */
  lemma {:induction false} CountUniform(rs: seq<Record>, isExternal: bool)
    requires forall i :: 0 <= i < |rs| ==> rs[i].isExternal == isExternal
    ensures CountExternal(rs) == if isExternal then |rs| else 0
    decreases |rs|
  {
    if |rs| > 0 {
      CountUniform(rs[1..], isExternal);
    }
  }

  /** Counting distributes over concatenation. */
  lemma {:induction false} CountAppend(a: seq<Record>, b: seq<Record>)
    ensures CountExternal(a + b) == CountExternal(a) + CountExternal(b)
    decreases |a|
  {
    if |a| == 0 {
      assert a + b == b;
    } else {
      assert (a + b)[1..] == a[1..] + b;
      CountAppend(a[1..], b);
    }
  }

  /** The two parsing loops of `generate_docs`: local documents first, then
      the external ones except the external README. */
  function Collect(locals: seq<AgentFile>, externals: seq<AgentFile>): (c: Collection)
    ensures c.externalCount == CountExternal(c.agents)
    ensures c.externalCount <= |c.agents|
    ensures forall i :: 0 <= i < |c.agents| ==> c.agents[i].category in AllCategories()
    ensures forall i, j :: 0 <= i < j < |c.agents| && c.agents[i].isExternal ==> c.agents[j].isExternal
    ensures forall i :: 0 <= i < |c.agents| && c.agents[i].isExternal ==> c.agents[i].filename != ReadmeStem
    ensures |c.agents| <= |locals| + |externals|
  {
    var mine := ParseAll(locals, false);
    var theirs := ParseAll(WithoutReadme(externals), true);
    ParseAllStems(WithoutReadme(externals), true, ReadmeStem);
    LocalsThenExternals(mine, theirs);
    Collection(mine + theirs, |theirs|)
  }

  /** The collection is empty exactly when no local document and no external
      document other than the README has header entries. */
  lemma {:induction false} CollectEmpty(locals: seq<AgentFile>, externals: seq<AgentFile>)
    ensures |Collect(locals, externals).agents| == 0 <==>
              && (forall j :: 0 <= j < |locals| ==> ParseBasic(locals[j].content) == map[])
              && (forall j :: 0 <= j < |externals| && externals[j].stem != ReadmeStem ==>
                    ParseBasic(externals[j].content) == map[])
  {
    ParseAllEmpty(locals, false);
    ParseAllEmpty(WithoutReadme(externals), true);
    OthersEmpty(externals);
  }

  /** The collection holds one record per local document with header entries
      and one per non-README external document with header entries; the
      external count is the second number. */
  lemma {:induction false} CollectCount(locals: seq<AgentFile>, externals: seq<AgentFile>)
    ensures |Collect(locals, externals).agents| == CountParsing(locals) + CountParsing(WithoutReadme(externals))
    ensures Collect(locals, externals).externalCount == CountParsing(WithoutReadme(externals))
  {
    ParseAllCount(locals, false);
    ParseAllCount(WithoutReadme(externals), true);
  }

  /** A record is collected exactly when a local document parses to it, or an
      external document other than the README does. */
  lemma {:induction false} CollectMembers(locals: seq<AgentFile>, externals: seq<AgentFile>, rec: Record)
    ensures rec in Collect(locals, externals).agents <==>
              || (exists j :: 0 <= j < |locals| && ParseAgentFile(locals[j], false) == Some(rec))
              || (exists j :: 0 <= j < |externals| && externals[j].stem != ReadmeStem
                                && ParseAgentFile(externals[j], true) == Some(rec))
  {
    ParseAllMembers(locals, false);
    ParseAllMembers(WithoutReadme(externals), true);
    ExternalParses(externals, rec);
  }

  /** Some non-README external document parses to `rec` exactly when some
      document of `WithoutReadme(externals)` does. */
  lemma {:induction false} ExternalParses(externals: seq<AgentFile>, rec: Record)
    ensures (exists j :: 0 <= j < |WithoutReadme(externals)| && ParseAgentFile(WithoutReadme(externals)[j], true) == Some(rec))
            <==> (exists j :: 0 <= j < |externals| && externals[j].stem != ReadmeStem
                                && ParseAgentFile(externals[j], true) == Some(rec))
  {
    var others := WithoutReadme(externals);
    if exists j :: 0 <= j < |others| && ParseAgentFile(others[j], true) == Some(rec) {
      var j :| 0 <= j < |others| && ParseAgentFile(others[j], true) == Some(rec);
      var m := ExternalIndex(externals, j);
      assert externals[m] == others[j];
    }
    if exists j :: 0 <= j < |externals| && externals[j].stem != ReadmeStem && ParseAgentFile(externals[j], true) == Some(rec) {
      var j :| 0 <= j < |externals| && externals[j].stem != ReadmeStem && ParseAgentFile(externals[j], true) == Some(rec);
      var m := OtherIndex(externals, j);
      assert others[m] == externals[j];
    }
  }

  /** Where a kept file sits among all the external files. */
  lemma {:induction false} ExternalIndex(externals: seq<AgentFile>, j: nat) returns (m: nat)
    requires j < |WithoutReadme(externals)|
    ensures m < |externals| && externals[m] == WithoutReadme(externals)[j] && externals[m].stem != ReadmeStem
  {
    m :| m < |externals| && externals[m] == WithoutReadme(externals)[j];
  }

  /** Where a non-README external file sits among the kept ones. */
  lemma {:induction false} OtherIndex(externals: seq<AgentFile>, j: nat) returns (m: nat)
    requires j < |externals| && externals[j].stem != ReadmeStem
    ensures m < |WithoutReadme(externals)| && WithoutReadme(externals)[m] == externals[j]
  {
    m :| m < |WithoutReadme(externals)| && WithoutReadme(externals)[m] == externals[j];
  }

  /** Every document of `WithoutReadme(files)` lacks header entries exactly when
      every non-README document of `files` does. */
  lemma {:induction false} OthersEmpty(files: seq<AgentFile>)
    ensures (forall j :: 0 <= j < |WithoutReadme(files)| ==> ParseBasic(WithoutReadme(files)[j].content) == map[])
            <==> (forall j :: 0 <= j < |files| && files[j].stem != ReadmeStem ==> ParseBasic(files[j].content) == map[])
  {
    var others := WithoutReadme(files);
    if forall j :: 0 <= j < |others| ==> ParseBasic(others[j].content) == map[] {
      forall j | 0 <= j < |files| && files[j].stem != ReadmeStem
        ensures ParseBasic(files[j].content) == map[]
      {
        var m :| 0 <= m < |others| && others[m] == files[j];
      }
    }
    if forall j :: 0 <= j < |files| && files[j].stem != ReadmeStem ==> ParseBasic(files[j].content) == map[] {
      forall m | 0 <= m < |others|
        ensures ParseBasic(others[m].content) == map[]
      {
        var j :| 0 <= j < |files| && files[j] == others[m];
      }
    }
  }

  /** Local records followed by external ones keep the counting, ordering,
      naming and category facts of both parts. */
  lemma {:induction false} LocalsThenExternals(mine: seq<Record>, theirs: seq<Record>)
    requires forall i :: 0 <= i < |mine| ==> !mine[i].isExternal && mine[i].category == GetCategory(mine[i].filename)
    requires forall i :: 0 <= i < |theirs| ==> theirs[i].isExternal && theirs[i].category == GetCategory(theirs[i].filename)
    requires forall i :: 0 <= i < |theirs| ==> theirs[i].filename != ReadmeStem
    ensures var all := mine + theirs;
            && CountExternal(all) == |theirs|
            && (forall i :: 0 <= i < |all| ==> all[i].category in AllCategories())
            && (forall i, j :: 0 <= i < j < |all| && all[i].isExternal ==> all[j].isExternal)
            && (forall i :: 0 <= i < |all| && all[i].isExternal ==> all[i].filename != ReadmeStem)
  {
    var all := mine + theirs;
    CountUniform(mine, false);
    CountUniform(theirs, true);
    CountAppend(mine, theirs);
    forall i | 0 <= i < |all|
      ensures all[i].isExternal <==> i >= |mine|
      ensures all[i].isExternal ==> all[i].filename != ReadmeStem
      ensures all[i].category in AllCategories()
    {
      if i < |mine| {
        assert all[i] == mine[i];
      } else {
        assert all[i] == theirs[i - |mine|];
      }
    }
  }
}

=== FILE: categories.dfy ===
/**
 The category taxonomy of the documentation generator: a fixed, ordered table
 of rules, each a display glyph, a category name and a list of glob-like name
 patterns. An agent belongs to the first rule (in table order, then pattern
 order) one of whose patterns matches its file stem, and to `Uncategorized`
 when none does.
 */
module Categories {
  import opened Strings
  import opened Wrappers

  /** The (glyph, name) pair the generator groups and renders by. */
  datatype Category = Category(emoji: string, name: string)

  /** One row of the taxonomy table. */
  datatype Rule = Rule(category: Category, patterns: seq<string>)

  /** The taxonomy, in declaration order, which is also the display order. */
  const Rules: seq<Rule> := [
    Rule(Category("\U{1F3E2}", "3Commas"), ["github-pr", "jira-status-report"]),
    Rule(Category("\U{1F3B8}", "Django"), ["django-*", "django"]),
    Rule(Category("\U{1F48E}", "Rails"), ["rails-*"]),
    Rule(Category("\U{1F7E0}", "Laravel"), ["laravel-*"]),
    Rule(Category("\U{1F40D}", "Python"), ["python-*", "fastapi-*"]),
    Rule(Category("\U{269B}\U{FE0F}", "Frontend"), ["vue-*", "react-*", "frontend-*"]),
    Rule(Category("\U{1F50D}", "Code Quality"), ["code-reviewer", "code-archaeologist"]),
    Rule(Category("\U{26A1}", "Performance"), ["performance-*"]),
    Rule(Category("\U{1F3AF}", "Orchestration"), ["*-orchestrator", "*-configurator", "project-analyst"]),
    Rule(Category("\U{1F4CA}", "Data & ML"), ["ml-*", "web-scraping-*"]),
    Rule(Category("\U{1F6E1}\U{FE0F}", "DevOps & Quality"), ["security-*", "testing-*", "devops-*"]),
    Rule(Category("\U{1F527}", "Backend & API"), ["backend-*", "api-*"]),
    Rule(Category("\U{1F4DD}", "Other"), ["documentation-*", "tailwind-*"])
  ]

  /** The fallback for a stem no rule matches. */
  const Uncategorized: Category := Category("\U{1F4E6}", "Uncategorized")

  /** Every category an agent can be given: the table's, then the fallback. */
  function AllCategories(): (cs: seq<Category>)
    ensures |cs| == |Rules| + 1
    ensures cs[|Rules|] == Uncategorized
    ensures forall i :: 0 <= i < |Rules| ==> cs[i] == Rules[i].category
  {
    seq(|Rules|, i requires 0 <= i < |Rules| => Rules[i].category) + [Uncategorized]
  }

  /** No two entries of `AllCategories()` share a name, so a category is
      identified by its name alone (the display order is keyed by name). */
  lemma CategoryNamesDistinct()
    ensures forall i, j :: 0 <= i < j < |AllCategories()| ==>
              AllCategories()[i].name != AllCategories()[j].name
  {
  }

  // ---------------------------------------------------------------------
  // Pattern matching

  /** `match_pattern`: a leading `*` means "ends with the rest"; otherwise a
      trailing `*` means "starts with the rest"; otherwise equality. */
  function MatchPattern(name: string, pattern: string): (r: bool)
    ensures |pattern| > 0 && pattern[0] == '*' ==>
              (r <==> exists front :: name == front + pattern[1..])
    ensures !(|pattern| > 0 && pattern[0] == '*') && |pattern| > 0 && pattern[|pattern| - 1] == '*' ==>
              (var stem := pattern[..|pattern| - 1]; r <==> exists back :: name == stem + back)
    ensures !(|pattern| > 0 && (pattern[0] == '*' || pattern[|pattern| - 1] == '*')) ==>
              (r <==> name == pattern)
  {
    if |pattern| > 0 && pattern[0] == '*' then
      EndsWithIffConcat(name, pattern[1..]);
      EndsWith(name, pattern[1..])
    else if |pattern| > 0 && pattern[|pattern| - 1] == '*' then
      StartsWithIffConcat(name, pattern[..|pattern| - 1]);
      StartsWith(name, pattern[..|pattern| - 1])
    else
      name == pattern
  }

  /** The lone wildcard matches every name. */
  lemma {:induction false} StarMatchesEverything(name: string)
    ensures MatchPattern(name, "*")
  {
    assert name == name + "*"[1..];
  }

  /** A pattern with no `*` at all matches exactly itself. */
  lemma {:induction false} PlainPatternIsEquality(name: string, pattern: string)
    requires '*' !in pattern
    ensures MatchPattern(name, pattern) <==> name == pattern
  {
    if |pattern| > 0 {
      assert pattern[0] in pattern;
      assert pattern[|pattern| - 1] in pattern;
    }
  }

  /** Some pattern of `rule` matches `name`. */
  predicate RuleMatches(name: string, rule: Rule) {
    exists k :: 0 <= k < |rule.patterns| && MatchPattern(name, rule.patterns[k])
  }

  /** The inner loop of `get_category`: does any of `patterns` match? */
  function AnyPatternMatches(name: string, patterns: seq<string>): (r: bool)
    ensures r <==> exists k :: 0 <= k < |patterns| && MatchPattern(name, patterns[k])
    decreases |patterns|
  {
    if |patterns| == 0 then false
    else if MatchPattern(name, patterns[0]) then true
    else
      var rest := AnyPatternMatches(name, patterns[1..]);
      assert forall k :: 1 <= k < |patterns| ==> patterns[k] == patterns[1..][k - 1];
      rest
  }

  /** The outer loop of `get_category` from rule `i` on: the index of the first
      rule that matches, if any. */
  function FirstMatchFrom(name: string, rules: seq<Rule>, i: nat): (r: Option<nat>)
    requires i <= |rules|
    ensures r.Some? ==> i <= r.value < |rules| && RuleMatches(name, rules[r.value])
    ensures r.Some? ==> forall j :: i <= j < r.value ==> !RuleMatches(name, rules[j])
    ensures r.None? ==> forall j :: i <= j < |rules| ==> !RuleMatches(name, rules[j])
    decreases |rules| - i
  {
    if i == |rules| then None
    else if AnyPatternMatches(name, rules[i].patterns) then Some(i)
    else FirstMatchFrom(name, rules, i + 1)
  }

  /** `get_category`: the category of the first matching rule, `Uncategorized`
      when there is none. */
  function GetCategory(name: string): (c: Category)
    ensures c in AllCategories()
    ensures c == Uncategorized <==> forall j :: 0 <= j < |Rules| ==> !RuleMatches(name, Rules[j])
    ensures forall i :: 0 <= i < |Rules| && c == Rules[i].category ==>
              RuleMatches(name, Rules[i]) && forall j :: 0 <= j < i ==> !RuleMatches(name, Rules[j])
  {
    CategoryNamesDistinct();
    match FirstMatchFrom(name, Rules, 0)
    case Some(i) =>
      assert AllCategories()[i] == Rules[i].category;
      Rules[i].category
    case None => Uncategorized
  }

  /** First match wins: a name that matches rule `i` is never given a rule after `i`. */
  lemma {:induction false} EarlierRuleWins(name: string, i: nat)
    requires i < |Rules| && RuleMatches(name, Rules[i])
    ensures exists k :: 0 <= k <= i && GetCategory(name) == Rules[k].category
  {
    var c := GetCategory(name);
    CategoryNamesDistinct();
    assert c != Uncategorized;
    var k :| 0 <= k < |AllCategories()| && AllCategories()[k] == c;
    assert k < |Rules|;
    assert c == Rules[k].category;
  }

  /** A pattern without a leading `*` cannot match a name that differs from it
      at an index before the pattern's last character. */
  lemma {:induction false} MismatchBeforeLast(name: string, pattern: string, k: nat)
    requires |pattern| > 0 && pattern[0] != '*'
    requires k + 1 < |pattern| && k < |name| && name[k] != pattern[k]
    ensures !MatchPattern(name, pattern)
  {
    if pattern[|pattern| - 1] == '*' {
      assert pattern[..|pattern| - 1][k] == pattern[k];
    }
  }

  /** No pattern of `rule` matches a name that differs from every one of them
      at index `k`, before the pattern's last character. */
  lemma {:induction false} RuleMismatchAt(name: string, rule: Rule, k: nat)
    requires forall q :: 0 <= q < |rule.patterns| ==>
               |rule.patterns[q]| > k + 1 && rule.patterns[q][0] != '*'
    requires forall q :: 0 <= q < |rule.patterns| ==> k < |name| && name[k] != rule.patterns[q][k]
    ensures !RuleMatches(name, rule)
  {
    forall q | 0 <= q < |rule.patterns|
      ensures !MatchPattern(name, rule.patterns[q])
    {
      MismatchBeforeLast(name, rule.patterns[q], k);
    }
  }

  /** When rule `i` is the first that matches, `name` gets rule `i`'s category. */
  lemma {:induction false} FirstMatchingRule(name: string, i: nat)
    requires i < |Rules| && RuleMatches(name, Rules[i])
    requires forall j :: 0 <= j < i ==> !RuleMatches(name, Rules[j])
    ensures GetCategory(name) == Rules[i].category
  {
    EarlierRuleWins(name, i);
    var k :| 0 <= k <= i && GetCategory(name) == Rules[k].category;
  }

  /** The Performance rule precedes Orchestration, so a performance orchestrator
      is a Performance agent although `*-orchestrator` matches it too. */
  lemma PerformanceOrchestratorIsPerformance()
    ensures GetCategory("performance-orchestrator") == Rules[7].category
  {
    var name := "performance-orchestrator";
    assert name[0] == 'p' && name[1] == 'e';
    forall j | 0 <= j < 7
      ensures !RuleMatches(name, Rules[j])
    {
      if j == 4 {
        RuleMismatchAt(name, Rules[j], 1);
      } else {
        RuleMismatchAt(name, Rules[j], 0);
      }
    }
    assert name == Rules[7].patterns[0][..12] + name[12..];
    assert MatchPattern(name, Rules[7].patterns[0]);
    FirstMatchingRule(name, 7);
  }

  /** Orchestration precedes DevOps & Quality, so a security configurator is an
      Orchestration agent although `security-*` matches it too. */
  lemma SecurityConfiguratorIsOrchestration()
    ensures GetCategory("security-configurator") == Rules[8].category
  {
    var name := "security-configurator";
    assert name[0] == 's';
    forall j | 0 <= j < 8
      ensures !RuleMatches(name, Rules[j])
    {
      RuleMismatchAt(name, Rules[j], 0);
    }
    assert name == name[..8] + Rules[8].patterns[1][1..];
    assert MatchPattern(name, Rules[8].patterns[1]);
    FirstMatchingRule(name, 8);
  }

  /** A leading-`*` pattern cannot match a name shorter than the rest of the pattern. */
  lemma {:induction false} SuffixPatternTooLong(name: string, pattern: string)
    requires |pattern| > 0 && pattern[0] == '*' && |name| < |pattern| - 1
    ensures !MatchPattern(name, pattern)
  {
  }

  /** A stem no pattern mentions falls back to `Uncategorized`. */
  lemma UnknownStemIsUncategorized()
    ensures GetCategory("zeta") == Uncategorized
  {
    var name := "zeta";
    assert name[0] == 'z';
    forall j | 0 <= j < |Rules|
      ensures !RuleMatches(name, Rules[j])
    {
      if j == 8 {
        var ps := Rules[8].patterns;
        SuffixPatternTooLong(name, ps[0]);
        SuffixPatternTooLong(name, ps[1]);
        MismatchBeforeLast(name, ps[2], 0);
        assert forall q :: 0 <= q < 3 ==> !MatchPattern(name, ps[q]);
      } else {
        RuleMismatchAt(name, Rules[j], 0);
      }
    }
  }
}

=== FILE: document.dfy ===
/**
 The whole `AGENTS.md` document `generate_docs` writes: a title, the overview
 table of counts, the category index, the quick reference table and one
 section per populated category, as a list of lines joined by newlines.
 Nothing is written when no agent was found.
 */
module Document {
  import opened Strings
  import opened Wrappers
  import opened Categories
  import opened Agent
  import opened Sorting
  import opened Grouping
  import opened Render
  import opened FrontMatter

  const Title: string := "# \U{1F916} 3Commas Claude Agents"
  const Banner: string := "> **Auto-generated documentation.**" + " Run `make docs` to update."

  function HeaderLines(): seq<string> {
    [Title, "", Banner, ""]
  }

  // ---------------------------------------------------------------------
  // Overview

  const OverviewHeading: string := "## \U{1F4CA} Overview"
  const MetricHeader: string := "| Metric | Value |"
  const MetricRule: string := "|--------|-------|"
  const TotalLabel: string := "Total Agents"
  const CustomLabel: string := "Custom (3Commas)"
  const ExternalLabel: string := "External (" + SourceLink + ")"
  const CategoriesLabel: string := "Categories"

  /** `| metric | n |` */
  function CountRow(metric: string, n: nat): string {
    "| " + metric + " | " + Decimal(n) + " |"
  }

  /** The number of local records. */
  function CountLocal(rs: seq<Record>): nat
    decreases |rs|
  {
    if |rs| == 0 then 0 else (if rs[0].isExternal then 0 else 1) + CountLocal(rs[1..])
  }

  /** `len(agents) - external_count` counts the local records: every record is
      one or the other. */
  lemma {:induction false} CustomIsLocal(rs: seq<Record>)
    ensures CountLocal(rs) + CountExternal(rs) == |rs|
    decreases |rs|
  {
    if |rs| > 0 {
      CustomIsLocal(rs[1..]);
    }
  }

  /** The overview's heading, table head, total and custom rows. */
  function OverviewFront(n: nat, custom: nat): seq<string> {
    [OverviewHeading, "", MetricHeader, MetricRule, CountRow(TotalLabel, n), CountRow(CustomLabel, custom)]
  }

  /** The external row, present only when some agent is external. */
  function ExternalRows(k: nat): seq<string> {
    if k > 0 then [CountRow(ExternalLabel, k)] else []
  }

  /** The category row and the blank line closing the overview. */
  function OverviewBack(kinds: nat): seq<string> {
    [CountRow(CategoriesLabel, kinds), ""]
  }

  /** The overview table: total, custom, external when there are any, and
      the number of categories. */
  function OverviewLines(col: Collection): (ls: seq<string>)
    requires col.externalCount <= |col.agents|
    ensures |ls| == if col.externalCount > 0 then 9 else 8
  {
    var n := |col.agents|;
    var k := col.externalCount;
    OverviewFront(n, n - k) + ExternalRows(k) + OverviewBack(|DisplayOrder(col.agents)|)
  }

  /** The overview has an external row exactly when some agent is external. */
  lemma {:induction false} ExternalRowIffExternal(col: Collection)
    requires col.externalCount <= |col.agents|
    ensures CountRow(ExternalLabel, col.externalCount) in OverviewLines(col) <==> col.externalCount > 0
  {
    var n := |col.agents|;
    var k := col.externalCount;
    ExternalRowIff(n, n - k, k, |DisplayOrder(col.agents)|);
  }

  lemma {:induction false} ExternalRowIff(n: nat, custom: nat, k: nat, kinds: nat)
    ensures CountRow(ExternalLabel, k) in OverviewFront(n, custom) + ExternalRows(k) + OverviewBack(kinds) <==> k > 0
  {
    RowsDifferAtThird(n, custom, k, kinds);
    assert k > 0 ==> ExternalRows(k)[0] == CountRow(ExternalLabel, k);
  }

  /** The overview of a collection whose external count is right: the total
      is the number of records and the custom count the number of local ones. */
  lemma {:induction false} OverviewCounts(col: Collection)
    requires col.externalCount == CountExternal(col.agents)
    ensures OverviewLines(col)[4] == CountRow(TotalLabel, |col.agents|)
    ensures OverviewLines(col)[5] == CountRow(CustomLabel, CountLocal(col.agents))
  {
    CustomIsLocal(col.agents);
  }

  /** The category count of the overview is the number of distinct categories
      of the records. */
  lemma {:induction false} OverviewCategoryCount(col: Collection)
    requires col.externalCount <= |col.agents|
    requires forall k :: 0 <= k < |col.agents| ==> col.agents[k].category in AllCategories()
    ensures var ls := OverviewLines(col);
            ls[|ls| - 2] == CountRow(CategoriesLabel, |set k | 0 <= k < |col.agents| :: col.agents[k].category|)
  {
    var ls := OverviewLines(col);
    assert ls[|ls| - 2] == CountRow(CategoriesLabel, |DisplayOrder(col.agents)|);
    CategoriesRowCountsKinds(col.agents);
  }

  /** The row of a metric shows the metric's first letter third. */
  lemma RowThird(metric: string, n: nat)
    requires |metric| > 0
    ensures CountRow(metric, n)[2] == metric[0]
  {
  }

  /** The external row differs from every other line of the overview: its
      third character is the only `E`. */
  lemma RowsDifferAtThird(n: nat, custom: nat, k: nat, kinds: nat)
    ensures CountRow(ExternalLabel, k) !in OverviewFront(n, custom)
    ensures CountRow(ExternalLabel, k) !in OverviewBack(kinds)
  {
    RowThird(ExternalLabel, k);
    RowThird(TotalLabel, n);
    RowThird(CustomLabel, custom);
    RowThird(CategoriesLabel, kinds);
    assert ExternalLabel[0] == 'E' && TotalLabel[0] == 'T';
    assert CustomLabel[0] == 'C' && CategoriesLabel[0] == 'C';
    assert OverviewHeading[2] != 'E' && MetricHeader[2] != 'E' && MetricRule[2] != 'E';
  }

  /** The `Categories` row counts the distinct categories of the records. */
  lemma {:induction false} CategoriesRowCountsKinds(agents: seq<Record>)
    requires forall k :: 0 <= k < |agents| ==> agents[k].category in AllCategories()
    ensures |DisplayOrder(agents)| == |set k | 0 <= k < |agents| :: agents[k].category|
  {
    KindsAreShown(agents);
    DisplayOrderCharacterised(agents);
    SortedShownCount(DisplayOrder(agents));
  }

  /** A rank-sorted sequence has as many distinct elements as positions. */
  lemma {:induction false} SortedShownCount(order: seq<Category>)
    requires RankSorted(order)
    ensures |set c | c in order| == |order|
  {
    RankSortedDistinct(order);
    DistinctCard(order);
  }

  /** The categories that occur are exactly the ones shown. */
  lemma {:induction false} KindsAreShown(agents: seq<Record>)
    requires forall k :: 0 <= k < |agents| ==> agents[k].category in AllCategories()
    ensures (set k | 0 <= k < |agents| :: agents[k].category) == set c | c in DisplayOrder(agents)
  {
    var order := DisplayOrder(agents);
    DisplayOrderCharacterised(agents);
    forall c | c in order
      ensures c in set k | 0 <= k < |agents| :: agents[k].category
    {
      var k :| 0 <= k < |agents| && agents[k].category == c;
    }
  }

  /** Ranks strictly increase along a rank-sorted sequence, so it repeats nothing. */
  lemma {:induction false} RankSortedDistinct(cs: seq<Category>)
    requires RankSorted(cs)
    ensures forall i, j :: 0 <= i < j < |cs| ==> cs[i] != cs[j]
  {
  }

  /** A sequence without repetitions has as many distinct elements as positions. */
  lemma {:induction false} DistinctCard(cs: seq<Category>)
    requires forall i, j :: 0 <= i < j < |cs| ==> cs[i] != cs[j]
    ensures |set c | c in cs| == |cs|
    decreases |cs|
  {
    if |cs| > 0 {
      var tail := cs[1..];
      DistinctCard(tail);
      assert (set c | c in cs) == {cs[0]} + (set c | c in tail);
      assert cs[0] !in tail;
    }
  }

  // ---------------------------------------------------------------------
  // Category index

  const IndexHeading: string := "## \U{1F4D1} Categories"

  /** `- [emoji category](#anchor) (count)` */
  function IndexEntry(c: Category, count: nat): string {
    "- [" + c.emoji + " " + c.name + "](#" + Anchor(c.name) + ") (" + Decimal(count) + ")"
  }

  /** The index entries of the categories `cs`. */
  function IndexEntries(cs: seq<Category>, agents: seq<Record>): (ls: seq<string>)
    ensures |ls| == |cs|
    ensures forall i :: 0 <= i < |cs| ==> ls[i] == IndexEntry(cs[i], |InCategory(agents, cs[i])|)
  {
    seq(|cs|, i requires 0 <= i < |cs| => IndexEntry(cs[i], |InCategory(agents, cs[i])|))
  }

  /** The category index: one entry per populated category, in display order. */
  function IndexLines(agents: seq<Record>): seq<string> {
    [IndexHeading, ""] + IndexEntries(DisplayOrder(agents), agents) + [""]
  }

  // ---------------------------------------------------------------------
  // Quick reference and sections

  const QuickHeading: string := "## \U{1F4CB} Quick Reference"
  const QuickHeader: string := "| Agent | Description |" + " Category | Source |"
  const QuickRule: string := "|-------|-------------|" + "----------|--------|"

  function QuickLines(agents: seq<Record>): seq<string> {
    [QuickHeading, "", QuickHeader, QuickRule] + QuickRows(agents) + [""]
  }

  /** The sections of the categories `cs`, one after the other. */
  function Sections(cs: seq<Category>, agents: seq<Record>): seq<string>
    decreases |cs|
  {
    if |cs| == 0 then [] else SectionLines(agents, cs[0]) + Sections(cs[1..], agents)
  }

  // ---------------------------------------------------------------------
  // The document

  /** `lines` */
  function DocumentLines(col: Collection): seq<string>
    requires col.externalCount <= |col.agents|
  {
    HeaderLines() + OverviewLines(col) + IndexLines(col.agents)
    + QuickLines(col.agents) + Sections(DisplayOrder(col.agents), col.agents)
  }

  /** `'\n'.join(lines)`, or nothing when there are no agents. */
  function Markdown(col: Collection): (r: Option<string>)
    requires col.externalCount <= |col.agents|
    ensures r.None? <==> |col.agents| == 0
    ensures r.Some? ==> StartsWith(r.value, Title)
  {
    if |col.agents| == 0 then None
    else
      var ls := DocumentLines(col);
      assert ls[0] == Title;
      JoinStartsWithFirst(ls, "\n");
      Some(Join(ls, "\n"))
  }

  /** `generate_docs` from the documents of the agents directory and of its
      `external` subdirectory, each list in the order it is read. */
  function GenerateDocs(locals: seq<AgentFile>, externals: seq<AgentFile>): (r: Option<string>)
    ensures r.Some? ==> StartsWith(r.value, Title)
  {
    Markdown(Collect(locals, externals))
  }

  /** Nothing is generated exactly when no local document and no external
      document other than the README has header entries. */
  lemma {:induction false} NothingToDocument(locals: seq<AgentFile>, externals: seq<AgentFile>)
    ensures GenerateDocs(locals, externals).None? <==>
              && (forall j :: 0 <= j < |locals| ==> ParseBasic(locals[j].content) == map[])
              && (forall j :: 0 <= j < |externals| && externals[j].stem != ReadmeStem ==>
                    ParseBasic(externals[j].content) == map[])
  {
    CollectEmpty(locals, externals);
  }


  // ---------------------------------------------------------------------
  // The document's lines read back

  /** The fields of a record that reach the document hold no line break. */
  predicate Printable(rec: Record) {
    && '\n' !in rec.filename
    && '\n' !in rec.description
    && '\n' !in rec.model
    && '\n' !in rec.version
    && (rec.triggers.Some? ==> '\n' !in rec.triggers.value)
    && PlainCategory(rec.category)
  }

  /** A category whose glyph and name are single-line. */
  predicate PlainCategory(c: Category) {
    '\n' !in c.emoji && '\n' !in c.name
  }

  /** No line of `ls` holds a line break. */
  predicate NoBreaks(ls: seq<string>) {
    forall i :: 0 <= i < |ls| ==> '\n' !in ls[i]
  }

  lemma {:induction false} NoBreaksAppend(a: seq<string>, b: seq<string>)
    requires NoBreaks(a) && NoBreaks(b)
    ensures NoBreaks(a + b)
  {
    forall i | 0 <= i < |a + b|
      ensures '\n' !in (a + b)[i]
    {
      if i >= |a| {
        assert (a + b)[i] == b[i - |a|];
      }
    }
  }

  /** Every category shown in the index or as a section is some record's
      category. */
  lemma {:induction false} ShownCategoriesPlain(agents: seq<Record>)
    requires forall k :: 0 <= k < |agents| ==> Printable(agents[k])
    ensures forall c :: c in DisplayOrder(agents) ==> PlainCategory(c)
  {
    forall c | c in DisplayOrder(agents)
      ensures PlainCategory(c)
    {
      PopulatedIffNonEmpty(agents, c);
      var k :| 0 <= k < |agents| && agents[k].category == c;
    }
  }

  lemma {:induction false} DecimalPlain(n: nat)
    ensures '\n' !in Decimal(n)
  {
  }

  /** The fixed texts are single-line. */
  lemma HeaderTextPlain()
    ensures '\n' !in Title && '\n' !in Banner
  {
  }

  lemma OverviewTextPlain()
    ensures '\n' !in OverviewHeading && '\n' !in MetricHeader && '\n' !in MetricRule
  {
  }

  lemma MetricsTextPlain()
    ensures '\n' !in TotalLabel && '\n' !in CustomLabel && '\n' !in CategoriesLabel
  {
  }

  lemma ExternalTextPlain()
    ensures '\n' !in ExternalLabel
  {
  }

  lemma TableTextPlain()
    ensures '\n' !in IndexHeading && '\n' !in QuickHeading
    ensures '\n' !in QuickHeader && '\n' !in QuickRule
  {
  }

  lemma MetaTextPlain()
    ensures '\n' !in SourceItem && '\n' !in MetaSeparator
    ensures '\n' !in ExternalBadge && '\n' !in Divider
  {
  }

  lemma {:induction false} CountRowPlain(metric: string, n: nat)
    requires '\n' !in metric
    ensures '\n' !in CountRow(metric, n)
  {
    DecimalPlain(n);
  }

  lemma HeaderPlain()
    ensures NoBreaks(HeaderLines())
  {
    HeaderTextPlain();
  }

  lemma {:induction false} OverviewPlain(col: Collection)
    requires col.externalCount <= |col.agents|
    ensures NoBreaks(OverviewLines(col))
  {
    var n := |col.agents|;
    var k := col.externalCount;
    var kinds := |DisplayOrder(col.agents)|;
    OverviewPiecesPlain(n, n - k, k, kinds);
    NoBreaksAppend(OverviewFront(n, n - k), ExternalRows(k));
    NoBreaksAppend(OverviewFront(n, n - k) + ExternalRows(k), OverviewBack(kinds));
  }

  lemma {:induction false} OverviewPiecesPlain(n: nat, custom: nat, k: nat, kinds: nat)
    ensures NoBreaks(OverviewFront(n, custom))
    ensures NoBreaks(ExternalRows(k))
    ensures NoBreaks(OverviewBack(kinds))
  {
    OverviewTextPlain();
    MetricsTextPlain();
    ExternalTextPlain();
    CountRowPlain(TotalLabel, n);
    CountRowPlain(CustomLabel, custom);
    CountRowPlain(ExternalLabel, k);
    CountRowPlain(CategoriesLabel, kinds);
  }

  lemma {:induction false} IndexEntryPlain(c: Category, count: nat)
    requires PlainCategory(c)
    ensures '\n' !in IndexEntry(c, count)
  {
    DecimalPlain(count);
  }

  lemma {:induction false} IndexPlain(agents: seq<Record>)
    requires forall k :: 0 <= k < |agents| ==> Printable(agents[k])
    ensures NoBreaks(IndexLines(agents))
  {
    var order := DisplayOrder(agents);
    ShownCategoriesPlain(agents);
    var entries := IndexEntries(order, agents);
    forall i | 0 <= i < |order|
      ensures '\n' !in entries[i]
    {
      IndexEntryPlain(order[i], |InCategory(agents, order[i])|);
    }
    TableTextPlain();
    NoBreaksAppend([IndexHeading, ""], entries);
    NoBreaksAppend([IndexHeading, ""] + entries, [""]);
  }

  lemma {:induction false} QuickRowPlain(rec: Record)
    requires Printable(rec)
    ensures '\n' !in QuickRow(rec)
  {
    var cells := QuickCells(rec);
    assert '\n' !in SourceLabel(rec);
    assert '\n' !in cells[0] && '\n' !in cells[2];
    JoinNoNewline(cells, " | ");
  }

  lemma {:induction false} QuickPlain(agents: seq<Record>)
    requires forall k :: 0 <= k < |agents| ==> Printable(agents[k])
    ensures NoBreaks(QuickLines(agents))
  {
    var sorted := SortByFilename(agents);
    var rows := QuickRows(agents);
    forall i | 0 <= i < |rows|
      ensures '\n' !in rows[i]
    {
      assert sorted[i] in multiset(agents);
      var k :| 0 <= k < |agents| && agents[k] == sorted[i];
      QuickRowPlain(sorted[i]);
    }
    TableTextPlain();
    NoBreaksAppend([QuickHeading, "", QuickHeader, QuickRule], rows);
    NoBreaksAppend([QuickHeading, "", QuickHeader, QuickRule] + rows, [""]);
  }

  lemma {:induction false} MetaItemsPlain(rec: Record)
    requires Printable(rec)
    ensures NoBreaks(MetaItems(rec))
  {
    MetaTextPlain();
    var m := if ModelShown(rec) then [ModelItem(rec.model)] else [];
    var t := if TriggersShown(rec) then [TriggersItem(rec.triggers.value)] else [];
    var v := if VersionShown(rec) then [VersionItem(rec.version)] else [];
    var s := if rec.isExternal then [SourceItem] else [];
    assert NoBreaks(m) && NoBreaks(t) && NoBreaks(v) && NoBreaks(s);
    NoBreaksAppend(m, t);
    NoBreaksAppend(m + t, v);
    NoBreaksAppend(m + t + v, s);
  }

  lemma {:induction false} MetaLinePlain(rec: Record)
    requires Printable(rec)
    ensures MetaLine(rec).Some? ==> '\n' !in MetaLine(rec).value
  {
    var items := MetaItems(rec);
    MetaItemsPlain(rec);
    MetaTextPlain();
    JoinNoNewline(items, MetaSeparator);
  }

  lemma {:induction false} BlockPlain(rec: Record)
    requires Printable(rec)
    ensures NoBreaks(AgentBlock(rec))
  {
    MetaLinePlain(rec);
    MetaTextPlain();
    var head := [AgentHeading(rec), "", "> " + rec.description, ""];
    var meta := match MetaLine(rec) case Some(line) => [line, ""] case None => [];
    assert NoBreaks(head) && NoBreaks(meta) && NoBreaks([Divider, ""]);
    NoBreaksAppend(head, meta);
    NoBreaksAppend(head + meta, [Divider, ""]);
  }

  lemma {:induction false} BlocksPlain(rs: seq<Record>)
    requires forall k :: 0 <= k < |rs| ==> Printable(rs[k])
    ensures NoBreaks(Blocks(rs))
    decreases |rs|
  {
    if |rs| > 0 {
      BlockPlain(rs[0]);
      BlocksPlain(rs[1..]);
      NoBreaksAppend(AgentBlock(rs[0]), Blocks(rs[1..]));
    }
  }

  lemma {:induction false} SectionPlain(agents: seq<Record>, c: Category)
    requires forall k :: 0 <= k < |agents| ==> Printable(agents[k])
    requires PlainCategory(c)
    ensures NoBreaks(SectionLines(agents, c))
  {
    var members := SectionMembers(agents, c);
    MembersPrintable(agents, c);
    BlocksPlain(members);
    SectionHeadingPlain(c);
    NoBreaksAppend([SectionHeading(c), ""], Blocks(members));
  }

  lemma {:induction false} SectionHeadingPlain(c: Category)
    requires PlainCategory(c)
    ensures NoBreaks([SectionHeading(c), ""])
  {
    assert '\n' !in "## " && '\n' !in " ";
  }

  /** A section lists only agents of the collection, so only printable ones. */
  lemma {:induction false} MembersPrintable(agents: seq<Record>, c: Category)
    requires forall k :: 0 <= k < |agents| ==> Printable(agents[k])
    ensures forall k :: 0 <= k < |SectionMembers(agents, c)| ==> Printable(SectionMembers(agents, c)[k])
  {
    var members := SectionMembers(agents, c);
    forall k | 0 <= k < |members|
      ensures Printable(members[k])
    {
      assert members[k] in members;
      var j :| 0 <= j < |agents| && agents[j] == members[k];
    }
  }

  lemma {:induction false} SectionsPlain(cs: seq<Category>, agents: seq<Record>)
    requires forall k :: 0 <= k < |agents| ==> Printable(agents[k])
    requires forall c :: c in cs ==> PlainCategory(c)
    ensures NoBreaks(Sections(cs, agents))
    decreases |cs|
  {
    if |cs| > 0 {
      SectionPlain(agents, cs[0]);
      assert forall c :: c in cs[1..] ==> c in cs;
      SectionsPlain(cs[1..], agents);
      NoBreaksAppend(SectionLines(agents, cs[0]), Sections(cs[1..], agents));
    }
  }

  /** No line of the document holds a line break. */
  lemma {:induction false} DocumentPlain(col: Collection)
    requires col.externalCount <= |col.agents|
    requires forall k :: 0 <= k < |col.agents| ==> Printable(col.agents[k])
    ensures NoBreaks(DocumentLines(col))
  {
    var agents := col.agents;
    HeaderPlain();
    OverviewPlain(col);
    IndexPlain(agents);
    QuickPlain(agents);
    ShownCategoriesPlain(agents);
    SectionsPlain(DisplayOrder(agents), agents);
    NoBreaksAppend(HeaderLines(), OverviewLines(col));
    NoBreaksAppend(HeaderLines() + OverviewLines(col), IndexLines(agents));
    NoBreaksAppend(HeaderLines() + OverviewLines(col) + IndexLines(agents), QuickLines(agents));
    NoBreaksAppend(HeaderLines() + OverviewLines(col) + IndexLines(agents) + QuickLines(agents),
                   Sections(DisplayOrder(agents), agents));
  }

  /** Splitting the written document at its line breaks gives back exactly the
      lines that were appended, when no record field holds a line break. */
  lemma {:induction false} LinesRoundTrip(col: Collection)
    requires col.externalCount <= |col.agents|
    requires |col.agents| > 0
    requires forall k :: 0 <= k < |col.agents| ==> Printable(col.agents[k])
    ensures Split(Markdown(col).value, '\n') == DocumentLines(col)
  {
    DocumentPlain(col);
    assert "\n" == ['\n'];
    SplitJoin(DocumentLines(col), '\n');
  }

}

=== FILE: front_matter.dfy ===
/**
 The fallback header ("front matter") parser of the documentation generator.

 A header block is what the pattern `^---\s*\n(.*?)\n---` (dot matching
 newlines) captures at the very start of a document: the opening `---`, any
 run of whitespace ending in a newline, then the shortest text followed by a
 newline and `---`. The block's lines are read as `key: value` entries into
 a string-to-string map, a later entry for the same key replacing an earlier one.
 */
module FrontMatter {
  import opened Strings
  import opened Wrappers

  const Opening: string := "---"
  const Closing: string := "\n---"

  /** The quote characters `strip('"\'')` removes. */
  const Quotes: set<char> := {'"', '\''}

  // ---------------------------------------------------------------------
  // Locating the block

  /** The index of the last newline of `s` before index `n`. */
  function LastNewlineBefore(s: string, n: nat): (r: Option<nat>)
    requires n <= |s|
    ensures r.Some? ==> r.value < n && s[r.value] == '\n'
    ensures r.Some? ==> forall k :: r.value < k < n ==> s[k] != '\n'
    ensures r.None? ==> forall k :: 0 <= k < n ==> s[k] != '\n'
    decreases n
  {
    if n == 0 then None
    else if s[n - 1] == '\n' then Some(n - 1)
    else LastNewlineBefore(s, n - 1)
  }

  /** The first index at or after `i` where `pat` occurs in `s`. */
  function FindFrom(s: string, pat: string, i: nat): (r: Option<nat>)
    ensures r.Some? ==> i <= r.value && OccursAt(s, pat, r.value)
    ensures r.Some? ==> forall k :: i <= k < r.value ==> !OccursAt(s, pat, k)
    ensures r.None? ==> forall k: nat :: i <= k ==> !OccursAt(s, pat, k)
    decreases |s| - i
  {
    if i + |pat| > |s| then None
    else if s[i..i + |pat|] == pat then Some(i)
    else FindFrom(s, pat, i + 1)
  }

  /** `content` has the shape the header pattern describes, with `ws` the
      whitespace after the opening marker and `body` the captured group. */
  predicate HeaderShape(content: string, ws: string, body: string, tail: string) {
    && StartsWith(content, Opening)
    && BodyShape(content[3..], ws, body, tail)
  }

  /** What follows the opening marker has the shape `\s*\n(.*?)\n---` describes. */
  predicate BodyShape(rest: string, ws: string, body: string, tail: string) {
    && rest == ws + "\n" + body + Closing + tail
    && forall i :: 0 <= i < |ws| ==> ws[i] in Whitespace
  }

  /** The group `re.match(r'^---\s*\n(.*?)\n---', content, re.DOTALL)` captures. */
  function HeaderBlock(content: string): (r: Option<string>)
    ensures !StartsWith(content, Opening) ==> r.None?
    ensures r.Some? ==> exists ws, tail :: HeaderShape(content, ws, r.value, tail)
    ensures r.Some? ==> !Contains(r.value, Closing)
  {
    if StartsWith(content, Opening) then
      var r := BlockAfterOpening(content[3..]);
      LiftShape(content, r);
      r
    else
      None
  }

  /** A body shape after the opening marker is a header shape of the document. */
  lemma {:induction false} LiftShape(content: string, r: Option<string>)
    requires StartsWith(content, Opening)
    requires r.Some? ==> exists ws, tail :: BodyShape(content[3..], ws, r.value, tail)
    ensures r.Some? ==> exists ws, tail :: HeaderShape(content, ws, r.value, tail)
  {
    if r.Some? {
      var ws, tail :| BodyShape(content[3..], ws, r.value, tail);
      assert HeaderShape(content, ws, r.value, tail);
    }
  }

  /** The group captured from the text after the opening marker. The greedy
      `\s*` first gives the newline to `\n` as late as the leading whitespace
      allows, and the lazy group stops at the first closing marker after it;
      only when no closing marker follows does the engine back off to the
      newline before, which can succeed only when the closing marker starts at
      that late newline itself. */
  function BlockAfterOpening(rest: string): (r: Option<string>)
    ensures r.Some? ==> exists ws, tail :: BodyShape(rest, ws, r.value, tail)
    ensures r.Some? ==> !Contains(r.value, Closing)
  {
    var w := |rest| - |TrimStart(rest, Whitespace)|;
    match LastNewlineBefore(rest, w)
    case None => None
    case Some(p) =>
      match FindFrom(rest, Closing, p + 1)
      case Some(q) =>
        ShapeAt(rest, p, q);
        Some(rest[p + 1..q])
      case None =>
        if OccursAt(rest, Closing, p) then
          match LastNewlineBefore(rest, p)
          case Some(p2) =>
            NoClosingInWhitespace(rest, w);
            ShapeAt(rest, p2, p);
            Some(rest[p2 + 1..p])
          case None => None
        else
          None
  }

  /** A newline at `p` inside the leading whitespace and the first closing
      marker at `q` after it delimit a body. */
  lemma {:induction false} ShapeAt(rest: string, p: nat, q: nat)
    requires p < q && OccursAt(rest, Closing, q) && rest[p] == '\n'
    requires forall k :: 0 <= k < p ==> rest[k] in Whitespace
    requires forall k :: p + 1 <= k < q ==> !OccursAt(rest, Closing, k)
    ensures BodyShape(rest, rest[..p], rest[p + 1..q], rest[q + 4..])
    ensures !Contains(rest[p + 1..q], Closing)
  {
    assert rest == rest[..p] + "\n" + rest[p + 1..q] + Closing + rest[q + 4..];
    LazyBodyIsOpen(rest, p + 1, q);
  }

  /** The text between `i` and the first closing marker at or after `i` holds no closing marker. */
  lemma {:induction false} LazyBodyIsOpen(s: string, i: nat, q: nat)
    requires i <= q <= |s|
    requires forall k :: i <= k < q ==> !OccursAt(s, Closing, k)
    ensures !Contains(s[i..q], Closing)
  {
    var b := s[i..q];
    forall k: nat | k <= |b|
      ensures !OccursAt(b, Closing, k)
    {
      if OccursAt(b, Closing, k) {
        forall j | k <= j < k + 4
          ensures b[j] == s[i + j]
        {
        }
        assert s[i + k..i + k + 4] == b[k..k + 4];
        assert OccursAt(s, Closing, i + k);
      }
    }
  }

  /** No closing marker starts just before a whitespace character. */
  lemma {:induction false} NoClosingInWhitespace(s: string, w: nat)
    requires w <= |s| && forall k :: 0 <= k < w ==> s[k] in Whitespace
    ensures forall k: nat :: k + 1 < w ==> !OccursAt(s, Closing, k)
  {
    forall k: nat | k + 1 < w
      ensures !OccursAt(s, Closing, k)
    {
      assert s[k + 1] in Whitespace;
      assert s[k + 1] != '-';
      if k + 4 <= |s| {
        assert s[k..k + 4][1] == s[k + 1];
        assert s[k..k + 4] != Closing;
      }
    }
  }

  /** The leading whitespace of `s` ends at the first non-blank character. */
  lemma {:induction false} LeadingBlanks(s: string)
    ensures var w := |s| - |TrimStart(s, Whitespace)|;
            && (forall k :: 0 <= k < w ==> s[k] in Whitespace)
            && (w < |s| ==> s[w] !in Whitespace)
  {
    var t := TrimStart(s, Whitespace);
    var w := |s| - |t|;
    if w < |s| {
      assert t[0] == s[w];
    }
  }

  /** The pattern matches exactly when the document has the header shape for
      some choice of leading whitespace, body and tail. */
  lemma {:induction false} HeaderBlockComplete(content: string, ws: string, body: string, tail: string)
    requires HeaderShape(content, ws, body, tail)
    ensures HeaderBlock(content).Some?
  {
    BlockAfterOpeningComplete(content[3..], ws, body, tail);
  }

  /** The text after the opening marker yields a block whenever it has the
      body shape for some choice of leading whitespace, body and tail. */
  lemma {:induction false} BlockAfterOpeningComplete(rest: string, ws: string, body: string, tail: string)
    requires BodyShape(rest, ws, body, tail)
    ensures BlockAfterOpening(rest).Some?
  {
    NewlineInLeadingBlanks(rest, ws, body, tail);
    BlockFromMarkers(rest, |ws|, |ws| + 1 + |body|);
  }

  /** A newline at `a` inside the leading whitespace and a closing marker at a
      later `c` are enough for `BlockAfterOpening` to find a block. */
  lemma {:induction false} BlockFromMarkers(rest: string, a: nat, c: nat)
    requires a < c && a < |rest| && rest[a] == '\n'
    requires OccursAt(rest, Closing, c)
    requires var w := |rest| - |TrimStart(rest, Whitespace)|;
             && a < w
             && LastNewlineBefore(rest, w).Some?
             && a <= LastNewlineBefore(rest, w).value
    ensures BlockAfterOpening(rest).Some?
  {
    var w := |rest| - |TrimStart(rest, Whitespace)|;
    var p := LastNewlineBefore(rest, w).value;
    MarkersFromLastNewline(rest, a, c, w, p);
  }

  /** `BlockFromMarkers` once the last leading newline `p` is named. */
  lemma {:induction false} MarkersFromLastNewline(rest: string, a: nat, c: nat, w: nat, p: nat)
    requires a < c && a < |rest| && rest[a] == '\n'
    requires OccursAt(rest, Closing, c)
    requires w == |rest| - |TrimStart(rest, Whitespace)|
    requires LastNewlineBefore(rest, w) == Some(p) && a <= p < w
    ensures BlockAfterOpening(rest).Some?
  {
    if FindFrom(rest, Closing, p + 1).None? {
      ClosingAtLateNewline(rest, a, c, p);
    }
    BlockFoundWhen(rest, p);
  }

  /** The two ways `BlockAfterOpening` succeeds from the last leading newline `p`. */
  lemma {:induction false} BlockFoundWhen(rest: string, p: nat)
    requires LastNewlineBefore(rest, |rest| - |TrimStart(rest, Whitespace)|) == Some(p)
    requires || FindFrom(rest, Closing, p + 1).Some?
             || (OccursAt(rest, Closing, p) && LastNewlineBefore(rest, p).Some?)
    ensures BlockAfterOpening(rest).Some?
  {
  }

  /** In the body shape, the newline after `ws` lies inside the leading
      whitespace, so there is a last newline there, and the closing marker
      follows the body. */
  lemma {:induction false} NewlineInLeadingBlanks(rest: string, ws: string, body: string, tail: string)
    requires BodyShape(rest, ws, body, tail)
    ensures var w := |rest| - |TrimStart(rest, Whitespace)|;
            && |ws| < w
            && LastNewlineBefore(rest, w).Some?
            && |ws| <= LastNewlineBefore(rest, w).value
    ensures rest[|ws|] == '\n'
    ensures OccursAt(rest, Closing, |ws| + 1 + |body|)
  {
    var a := |ws|;
    assert rest[a] == '\n';
    assert rest[..a] == ws;
    assert forall k :: 0 <= k <= a ==> rest[k] in Whitespace;
    BlanksBeforeFirstMark(rest, a);
    LastNewlineAtLeast(rest, |rest| - |TrimStart(rest, Whitespace)|, a);
    var c := a + 1 + |body|;
    assert rest[c..c + 4] == Closing;
  }

  /** A whitespace prefix of `s` lies inside its leading whitespace. */
  lemma {:induction false} BlanksBeforeFirstMark(s: string, a: nat)
    requires a < |s|
    requires forall k :: 0 <= k <= a ==> s[k] in Whitespace
    ensures a < |s| - |TrimStart(s, Whitespace)|
  {
    LeadingBlanks(s);
  }

  /** A newline at `a` before `n` bounds the last newline before `n` from below. */
  lemma {:induction false} LastNewlineAtLeast(s: string, n: nat, a: nat)
    requires a < n <= |s| && s[a] == '\n'
    ensures LastNewlineBefore(s, n).Some?
    ensures a <= LastNewlineBefore(s, n).value
  {
  }

  /** When no closing marker follows the last leading newline `p`, a closing
      marker at `c` after an earlier newline at `a` must start at `p` itself. */
  lemma {:induction false} ClosingAtLateNewline(rest: string, a: nat, c: nat, p: nat)
    requires a < c && a < |rest| && rest[a] == '\n'
    requires OccursAt(rest, Closing, c)
    requires a <= p < |rest| - |TrimStart(rest, Whitespace)|
    requires FindFrom(rest, Closing, p + 1).None?
    ensures OccursAt(rest, Closing, p)
    ensures LastNewlineBefore(rest, p).Some?
  {
    assert c <= p;
    assert rest[c + 1] == rest[c..c + 4][1] == '-';
    assert '-' !in Whitespace;
    TrimStartStops(rest, Whitespace, c + 1);
    assert c == p;
  }

  /** A block written as the opening marker, a newline, a body that starts with
      a non-blank character and holds no closing marker, then the closing marker,
      is read back as exactly that body, whatever follows it. */
  lemma {:induction false} HeaderBlockRoundTrip(body: string, tail: string)
    requires |body| > 0 && body[0] !in Whitespace
    requires !Contains(body, Closing)
    ensures HeaderBlock(Opening + "\n" + body + Closing + tail) == Some(body)
  {
    var content := Opening + "\n" + body + Closing + tail;
    assert content[..3] == Opening;
    assert content[3..] == "\n" + body + Closing + tail;
    ShortBlockAfterOpening(body, tail);
  }

  /** The text after the opening marker of such a block yields its body. */
  lemma {:induction false} ShortBlockAfterOpening(body: string, tail: string)
    requires |body| > 0 && body[0] !in Whitespace
    requires !Contains(body, Closing)
    ensures BlockAfterOpening("\n" + body + Closing + tail) == Some(body)
  {
    ShortBlockFacts(body, tail);
  }

  /** After the opening marker of such a block, the leading whitespace is the
      single newline and the first closing marker is the one after the body. */
  lemma {:induction false} ShortBlockFacts(body: string, tail: string)
    requires |body| > 0 && body[0] !in Whitespace
    requires !Contains(body, Closing)
    ensures var rest := "\n" + body + Closing + tail;
            && |rest| - |TrimStart(rest, Whitespace)| == 1
            && LastNewlineBefore(rest, 1) == Some(0)
            && FindFrom(rest, Closing, 1) == Some(1 + |body|)
            && rest[1..1 + |body|] == body
  {
    var rest := "\n" + body + Closing + tail;
    var w := |rest| - |TrimStart(rest, Whitespace)|;
    assert rest[0] in Whitespace && rest[1] !in Whitespace;
    assert w == 1;
    assert LastNewlineBefore(rest, w) == Some(0);
    var c := 1 + |body|;
    ClosingEndsBody(body, tail);
    FirstOccurrence(rest, Closing, 1, c);
    assert rest[1..c] == body;
  }

  /** In a newline, a body free of closing markers, a closing marker and a tail,
      the first closing marker after the newline is the one after the body. */
  lemma {:induction false} ClosingEndsBody(body: string, tail: string)
    requires !Contains(body, Closing)
    ensures var rest := "\n" + body + Closing + tail;
            && OccursAt(rest, Closing, 1 + |body|)
            && forall k :: 1 <= k < 1 + |body| ==> !OccursAt(rest, Closing, k)
  {
    var rest := "\n" + body + Closing + tail;
    var c := 1 + |body|;
    assert rest[c..c + 4] == Closing;
    forall k | 1 <= k < c
      ensures !OccursAt(rest, Closing, k)
    {
      if k + 4 <= c {
        assert body[k - 1..k + 3] == rest[k..k + 4];
        assert !OccursAt(body, Closing, k - 1);
      } else if k + 4 <= |rest| {
        assert rest[k..k + 4][c - k] == rest[c] == '\n';
        assert Closing[c - k] == '-';
      }
    }
  }

  /** `FindFrom` finds the first occurrence at or after its start. */
  lemma {:induction false} FirstOccurrence(s: string, pat: string, i: nat, c: nat)
    requires i <= c && OccursAt(s, pat, c)
    requires forall k :: i <= k < c ==> !OccursAt(s, pat, k)
    ensures FindFrom(s, pat, i) == Some(c)
  {
  }

  // ---------------------------------------------------------------------
  // Reading the block's lines

  /** One line of the block: kept only when, once stripped, it holds a `:` and
      does not start with `#`; the key is the stripped text before the first
      `:`, the value the stripped text after it with every leading and trailing
      quote character removed. */
  function ParseLine(line: string): (r: Option<(string, string)>)
    ensures r.Some? <==> ':' in Strip(line) && !StartsWith(Strip(line), "#")
  {
    var t := Strip(line);
    if ':' in t && !StartsWith(t, "#") then
      var (before, after) := Partition(t, ':');
      Some((Strip(before), StripSet(Strip(after), Quotes)))
    else
      None
  }

  /** Every entry a line yields has a key free of `:` with no surrounding
      blanks, and a value with no surrounding quote characters. */
  lemma {:induction false} ParsedEntryShape(line: string)
    requires ParseLine(line).Some?
    ensures var (k, v) := ParseLine(line).value;
            && ':' !in k
            && (|k| > 0 ==> k[0] !in Whitespace && k[|k| - 1] !in Whitespace)
            && (|v| > 0 ==> v[0] !in Quotes && v[|v| - 1] !in Quotes)
  {
    var t := Strip(line);
    var (before, after) := Partition(t, ':');
    StripIsSlice(before, Whitespace);
  }

  /** Whatever `StripSet` returns is a piece of its input. */
  lemma {:induction false} StripIsSlice(s: string, cs: set<char>)
    ensures forall x :: x in StripSet(s, cs) ==> x in s
  {
    StripSetSlice(s, cs);
  }

  /** Record one line's entry, if it has one. */
  function ApplyLine(m: map<string, string>, line: string): map<string, string> {
    match ParseLine(line)
    case Some((k, v)) => m[k := v]
    case None => m
  }

  /** `for line in lines: result[key] = value`, as a left fold. */
  function FoldLines(m: map<string, string>, lines: seq<string>): map<string, string>
    decreases |lines|
  {
    if |lines| == 0 then m else FoldLines(ApplyLine(m, lines[0]), lines[1..])
  }

  /** Reference reading of "last duplicate wins": the value of the last line
      that has an entry for `key`. */
  function LastValue(lines: seq<string>, key: string): Option<string>
    decreases |lines|
  {
    if |lines| == 0 then None
    else
      match ParseLine(lines[|lines| - 1])
      case Some((k, v)) =>
        if k == key then Some(v) else LastValue(lines[..|lines| - 1], key)
      case None => LastValue(lines[..|lines| - 1], key)
  }

  /** Folding over one more line is applying it to the fold of the others. */
  lemma {:induction false} FoldLinesSnoc(m: map<string, string>, lines: seq<string>)
    requires |lines| > 0
    ensures FoldLines(m, lines) == ApplyLine(FoldLines(m, lines[..|lines| - 1]), lines[|lines| - 1])
    decreases |lines|
  {
    var n := |lines|;
    var init := lines[..n - 1];
    if n == 1 {
      assert lines[1..] == [];
      assert init == [];
    } else {
      var m1 := ApplyLine(m, lines[0]);
      assert lines[1..][..n - 2] == init[1..];
      assert lines[1..][n - 2] == lines[n - 1];
      assert init[0] == lines[0];
      calc {
        FoldLines(m, lines);
        FoldLines(m1, lines[1..]);
        { FoldLinesSnoc(m1, lines[1..]); }
        ApplyLine(FoldLines(m1, init[1..]), lines[n - 1]);
        ApplyLine(FoldLines(m, init), lines[n - 1]);
      }
    }
  }

  /** The fold keeps, for each key, the value of the last line naming it, and
      the starting map's value for keys no line names. */
  lemma {:induction false} FoldLinesLastWins(m: map<string, string>, lines: seq<string>, key: string)
    ensures key in FoldLines(m, lines) <==> key in m || LastValue(lines, key).Some?
    ensures LastValue(lines, key).Some? ==> FoldLines(m, lines)[key] == LastValue(lines, key).value
    ensures LastValue(lines, key).None? && key in m ==> FoldLines(m, lines)[key] == m[key]
    decreases |lines|
  {
    if |lines| > 0 {
      FoldLinesSnoc(m, lines);
      FoldLinesLastWins(m, lines[..|lines| - 1], key);
    }
  }

  /** `parse_front_matter_basic`: the entries of the header block, or the empty
      map when the document has none. */
  function ParseBasic(content: string): (r: map<string, string>)
    ensures HeaderBlock(content).None? ==> r == map[]
    ensures !StartsWith(content, Opening) ==> r == map[]
  {
    match HeaderBlock(content)
    case None => map[]
    case Some(body) => FoldLines(map[], Split(body, '\n'))
  }

  /** A document without a closing `\n---` anywhere has no header entries. */
  lemma {:induction false} NoClosingNoEntries(content: string)
    requires !Contains(content, Closing)
    ensures ParseBasic(content) == map[]
  {
    if HeaderBlock(content).Some? {
      var body := HeaderBlock(content).value;
      var ws, tail :| HeaderShape(content, ws, body, tail);
      ClosingInShape(content, ws, body, tail);
    }
  }

  /** A document of the header shape holds the closing marker after its body. */
  lemma {:induction false} ClosingInShape(content: string, ws: string, body: string, tail: string)
    requires HeaderShape(content, ws, body, tail)
    ensures OccursAt(content, Closing, 3 + |ws| + 1 + |body|)
  {
    var c := 3 + |ws| + 1 + |body|;
    assert content == content[..3] + content[3..];
    assert content[c..c + 4] == content[3..][c - 3..c + 1];
  }

  /** Every entry of the parsed map comes from the last line of the block that
      names its key, and every key is named by some line. */
  lemma {:induction false} ParseBasicEntries(content: string, key: string)
    requires HeaderBlock(content).Some?
    ensures var lines := Split(HeaderBlock(content).value, '\n');
            && (key in ParseBasic(content) <==> LastValue(lines, key).Some?)
            && (key in ParseBasic(content) ==> ParseBasic(content)[key] == LastValue(lines, key).value)
  {
    FoldLinesLastWins(map[], Split(HeaderBlock(content).value, '\n'), key);
  }

  // ---------------------------------------------------------------------
  // Writing a header and reading it back

  /** A `key: value` entry that the line parser reads back unchanged: the key
      is non-empty, has no `:`, no surrounding blanks, does not start a comment
      (`#`) or a marker (`-`); neither holds a newline; the value has no
      surrounding blanks or quote characters. */
  predicate WellFormedEntry(key: string, value: string) {
    && |key| > 0 && key[0] !in Whitespace && key[|key| - 1] !in Whitespace
    && ':' !in key && key[0] != '#' && key[0] != '-'
    && '\n' !in key && '\n' !in value
    && (|value| > 0 ==> value[0] !in Whitespace + Quotes && value[|value| - 1] !in Whitespace + Quotes)
  }

  /** The line `key: value` as a header author writes it. */
  function EntryLine(key: string, value: string): string {
    key + ": " + value
  }

  /** Partitioning at the first `:` finds the key again. */
  lemma {:induction false} PartitionAfterKey(key: string, rest: string)
    requires ':' !in key
    ensures Partition(key + ":" + rest, ':') == (key, rest)
  {
    var t := key + ":" + rest;
    assert t[|key|] == ':';
    var i := IndexOf(t, ':').value;
    assert i == |key|;
    assert t[..i] == key;
    assert t[i + 1..] == rest;
  }

  /** A kept line's entry is the stripped partition of the stripped line. */
  lemma {:induction false} ParseKeptLine(line: string)
    requires ':' in Strip(line) && !StartsWith(Strip(line), "#")
    ensures var parts := Partition(Strip(line), ':');
            ParseLine(line) == Some((Strip(parts.0), StripSet(Strip(parts.1), Quotes)))
  {
  }

  /** A well-formed entry line is read back as its key and value. */
  lemma {:induction false} ParseLineRoundTrip(key: string, value: string)
    requires WellFormedEntry(key, value)
    ensures ParseLine(EntryLine(key, value)) == Some((key, value))
  {
    var line := EntryLine(key, value);
    var after := if |value| > 0 then " " + value else "";
    var t := key + ":" + after;
    if |value| > 0 {
      StrippedEntryLine(key, value);
      assert key + ":" + " " + value == t;
    } else {
      StrippedEmptyEntryLine(key, value);
      assert key + ":" == t;
    }
    KeptEntryLine(key, after);
    ParseKeptLine(line);
    PartitionAfterKey(key, after);
    StrippedKey(key);
    StrippedValue(value, after);
  }

  /** The stripped entry line is kept: it holds `:` and starts with the key. */
  lemma {:induction false} KeptEntryLine(key: string, after: string)
    requires |key| > 0 && key[0] != '#'
    ensures var t := key + ":" + after; ':' in t && !StartsWith(t, "#")
  {
    var t := key + ":" + after;
    assert t[|key|] == ':';
    assert t[0] == key[0];
  }

  /** A well-formed key survives stripping. */
  lemma {:induction false} StrippedKey(key: string)
    requires |key| > 0 && key[0] !in Whitespace && key[|key| - 1] !in Whitespace
    ensures Strip(key) == key
  {
    assert key == "" + key + "";
    StripSetExact("", key, "", Whitespace);
  }

  /** A well-formed value survives the value clean-up after the `:`. */
  lemma {:induction false} StrippedValue(value: string, after: string)
    requires |value| > 0 ==> value[0] !in Whitespace + Quotes && value[|value| - 1] !in Whitespace + Quotes
    requires after == if |value| > 0 then " " + value else ""
    ensures StripSet(Strip(after), Quotes) == value
  {
    if |value| > 0 {
      assert after == " " + value + "";
      StripSetExact(" ", value, "", Whitespace);
    }
    assert value == "" + value + "";
    StripSetExact("", value, "", Quotes);
  }

  /** Stripping an entry line with a value leaves it as it is. */
  lemma {:induction false} StrippedEntryLine(key: string, value: string)
    requires WellFormedEntry(key, value) && |value| > 0
    ensures Strip(EntryLine(key, value)) == key + ":" + " " + value
  {
    var v := key + ":" + " " + value;
    assert EntryLine(key, value) == "" + v + "";
    assert v[0] == key[0];
    assert v[|v| - 1] == value[|value| - 1];
    StripSetExact("", v, "", Whitespace);
  }

  /** Stripping an entry line with an empty value drops the trailing blank. */
  lemma {:induction false} StrippedEmptyEntryLine(key: string, value: string)
    requires WellFormedEntry(key, value) && |value| == 0
    ensures Strip(EntryLine(key, value)) == key + ":"
  {
    var v := key + ":";
    assert EntryLine(key, value) == "" + v + " ";
    assert v[0] == key[0];
    assert ' ' in Whitespace;
    StripSetExact("", v, " ", Whitespace);
  }

  /** Applying a well-formed entry line sets its key to its value. */
  lemma {:induction false} ApplyEntryLine(m: map<string, string>, key: string, value: string)
    requires WellFormedEntry(key, value)
    ensures ApplyLine(m, EntryLine(key, value)) == m[key := value]
  {
    ParseLineRoundTrip(key, value);
  }

  /** Reference reading of a list of entries: a later key replaces an earlier one. */
  function EntriesMap(entries: seq<(string, string)>): map<string, string>
    decreases |entries|
  {
    if |entries| == 0 then map[]
    else
      var last := entries[|entries| - 1];
      EntriesMap(entries[..|entries| - 1])[last.0 := last.1]
  }

  /** The lines of a header written from `entries`. */
  function EntryLines(entries: seq<(string, string)>): (lines: seq<string>)
    ensures |lines| == |entries|
    ensures forall i :: 0 <= i < |entries| ==> lines[i] == EntryLine(entries[i].0, entries[i].1)
  {
    seq(|entries|, i requires 0 <= i < |entries| => EntryLine(entries[i].0, entries[i].1))
  }

  /** Folding well-formed entry lines yields the reference map. */
  lemma {:induction false} FoldEntryLines(entries: seq<(string, string)>)
    requires forall i :: 0 <= i < |entries| ==> WellFormedEntry(entries[i].0, entries[i].1)
    ensures FoldLines(map[], EntryLines(entries)) == EntriesMap(entries)
    decreases |entries|
  {
    var n := |entries|;
    if n > 0 {
      var lines := EntryLines(entries);
      var (k, v) := entries[n - 1];
      assert lines[..n - 1] == EntryLines(entries[..n - 1]);
      calc {
        FoldLines(map[], lines);
        { FoldLinesSnoc(map[], lines); }
        ApplyLine(FoldLines(map[], lines[..n - 1]), lines[n - 1]);
        { FoldEntryLines(entries[..n - 1]); }
        ApplyLine(EntriesMap(entries[..n - 1]), EntryLine(k, v));
        { ApplyEntryLine(EntriesMap(entries[..n - 1]), k, v); }
        EntriesMap(entries[..n - 1])[k := v];
      }
    }
  }

  /** Newline-joined lines that are non-empty, newline-free and do not start
      with `-` hold no closing marker. */
  lemma {:induction false} JoinedLinesAreOpen(lines: seq<string>)
    requires forall i :: 0 <= i < |lines| ==> |lines[i]| > 0 && '\n' !in lines[i] && lines[i][0] != '-'
    ensures !Contains(Join(lines, "\n"), Closing)
    decreases |lines|
  {
    var s := Join(lines, "\n");
    if |lines| == 1 {
      forall k: nat | k <= |s|
        ensures !OccursAt(s, Closing, k)
      {
        if k < |s| {
          assert s[k] in lines[0];
        }
      }
    } else if |lines| > 1 {
      var l := lines[0];
      var j := Join(lines[1..], "\n");
      JoinedLinesAreOpen(lines[1..]);
      assert s == l + "\n" + j;
      assert j[0] == lines[1][0] by {
        if |lines[1..]| > 1 {
          assert j == lines[1] + "\n" + Join(lines[2..], "\n");
        }
      }
      forall k: nat | k <= |s|
        ensures !OccursAt(s, Closing, k)
      {
        if k < |l| {
          assert s[k] == l[k] && l[k] in l;
        } else if k == |l| && k + 4 <= |s| {
          assert s[k + 1] == j[0];
          assert s[k..k + 4][1] == s[k + 1];
        } else if k > |l| && k + 4 <= |s| {
          assert s[k..k + 4] == j[k - |l| - 1..k - |l| + 3];
          assert !OccursAt(j, Closing, k - |l| - 1);
        }
      }
    }
  }

  /** Writing a header from well-formed entries and parsing the document gives
      the entries back, a later duplicate key winning, whatever the body is. */
  lemma {:induction false} ParseBasicRoundTrip(entries: seq<(string, string)>, rest: string)
    requires |entries| > 0
    requires forall i :: 0 <= i < |entries| ==> WellFormedEntry(entries[i].0, entries[i].1)
    ensures ParseBasic(Opening + "\n" + Join(EntryLines(entries), "\n") + Closing + rest)
            == EntriesMap(entries)
  {
    var lines := EntryLines(entries);
    var body := Join(lines, "\n");
    forall i | 0 <= i < |lines|
      ensures |lines[i]| > 0 && '\n' !in lines[i] && lines[i][0] != '-'
    {
      var (k, v) := entries[i];
      assert lines[i] == k + ": " + v;
      assert lines[i][0] == k[0];
      forall x | x in lines[i]
        ensures x != '\n'
      {
        assert x in k || x in ": " || x in v;
      }
    }
    JoinedLinesAreOpen(lines);
    assert body[0] == lines[0][0] by {
      if |lines| > 1 {
        assert body == lines[0] + "\n" + Join(lines[1..], "\n");
      }
    }
    HeaderBlockRoundTrip(body, rest);
    SplitJoin(lines, '\n');
    FoldEntryLines(entries);
  }
}

=== FILE: grouping.dfy ===
/**
 Grouping of agent records by category and the order in which categories are
 displayed: `by_category`, `category_order` and `sorted_categories` of
 `generate_docs`.

 A category's rank is its row in the taxonomy table; `Uncategorized` ranks
 999 and any other name 998. Categories are displayed by increasing rank,
 which is the taxonomy order with `Uncategorized` last.
 */
module Grouping {
  import opened Wrappers
  import opened Categories
  import opened Agent

  const UncategorizedRank: nat := 999
  const UnknownRank: nat := 998

  /** Lookup in the `{cat: i for i, (_, cat, _) in enumerate(CATEGORIES)}`
      dictionary among the first `n` rows: a later row with the same name
      would overwrite an earlier one. */
  function RuleIndex(name: string, n: nat): (r: Option<nat>)
    requires n <= |Rules|
    ensures r.Some? ==> r.value < n && Rules[r.value].category.name == name
    ensures r.Some? ==> forall i :: r.value < i < n ==> Rules[i].category.name != name
    ensures r.None? ==> forall i :: 0 <= i < n ==> Rules[i].category.name != name
    decreases n
  {
    if n == 0 then None
    else if Rules[n - 1].category.name == name then Some(n - 1)
    else RuleIndex(name, n - 1)
  }

  /** `category_order.get(name, 998)` once `Uncategorized` is set to 999. */
  function Rank(name: string): (r: nat)
    ensures name == Uncategorized.name ==> r == UncategorizedRank
    ensures name != Uncategorized.name ==>
              (r < |Rules| <==> exists i :: 0 <= i < |Rules| && Rules[i].category.name == name)
    ensures r < |Rules| ==> Rules[r].category.name == name
  {
    if name == Uncategorized.name then UncategorizedRank
    else
      match RuleIndex(name, |Rules|)
      case Some(i) => i
      case None => UnknownRank
  }

  /** Every category an agent can be given ranks by its position in
      `AllCategories()`, except that the fallback's rank is 999. */
  lemma {:induction false} RankOfCategory(i: nat)
    requires i < |AllCategories()|
    ensures Rank(AllCategories()[i].name) == if i < |Rules| then i else UncategorizedRank
  {
    CategoryNamesDistinct();
    var cs := AllCategories();
    if i < |Rules| {
      assert cs[i].name != cs[|Rules|].name;
      var r := Rank(cs[i].name);
      assert r < |Rules| by {
        assert Rules[i].category.name == cs[i].name;
      }
      assert cs[r].name == cs[i].name;
    }
  }

  /** Ranks strictly increase along `AllCategories()`. */
  lemma RanksIncrease()
    ensures forall i, j :: 0 <= i < j < |AllCategories()| ==>
              Rank(AllCategories()[i].name) < Rank(AllCategories()[j].name)
  {
    forall i, j | 0 <= i < j < |AllCategories()|
      ensures Rank(AllCategories()[i].name) < Rank(AllCategories()[j].name)
    {
      RankOfCategory(i);
      RankOfCategory(j);
    }
  }

  /** Categories strictly ordered by rank, as `sorted` leaves them when no two
      share a rank. */
  predicate RankSorted(cs: seq<Category>) {
    forall i, j :: 0 <= i < j < |cs| ==> Rank(cs[i].name) < Rank(cs[j].name)
  }

  // ---------------------------------------------------------------------
  // Grouping

  /** `a` is `b` with some elements left out: the elements of `a` occur in `b`
      in the same order. */
  predicate Subsequence<T(==)>(a: seq<T>, b: seq<T>)
    decreases |b|
  {
    |a| == 0 || (|b| > 0 && ((a[0] == b[0] && Subsequence(a[1..], b[1..])) || Subsequence(a, b[1..])))
  }

  /** `by_category[c]`: the records of category `c`, in list order. */
  function InCategory(agents: seq<Record>, c: Category): (r: seq<Record>)
    ensures |r| <= |agents|
    ensures forall k :: 0 <= k < |r| ==> r[k].category == c
    ensures forall a :: a in r <==> a in agents && a.category == c
    decreases |agents|
  {
    if |agents| == 0 then []
    else
      var rest := InCategory(agents[1..], c);
      assert forall a :: a in agents <==> a == agents[0] || a in agents[1..];
      if agents[0].category == c then [agents[0]] + rest else rest
  }

  /** A group holds each record of its category as often as the list does, and
      no other record. */
  lemma {:induction false} InCategoryCounts(agents: seq<Record>, c: Category)
    ensures forall a :: multiset(InCategory(agents, c))[a] == if a.category == c then multiset(agents)[a] else 0
    decreases |agents|
  {
    if |agents| > 0 {
      var rest := InCategory(agents[1..], c);
      InCategoryCounts(agents[1..], c);
      assert agents == [agents[0]] + agents[1..];
      var whole := multiset(agents);
      assert whole == multiset{agents[0]} + multiset(agents[1..]);
      if agents[0].category == c {
        assert multiset(InCategory(agents, c)) == multiset{agents[0]} + multiset(rest);
      } else {
        assert InCategory(agents, c) == rest;
      }
    }
  }

  /** A group keeps the list's order. */
  lemma {:induction false} InCategoryInOrder(agents: seq<Record>, c: Category)
    ensures Subsequence(InCategory(agents, c), agents)
    decreases |agents|
  {
    if |agents| > 0 {
      var rest := InCategory(agents[1..], c);
      InCategoryInOrder(agents[1..], c);
      if agents[0].category == c {
        assert ([agents[0]] + rest)[1..] == rest;
      } else {
        assert |rest| > 0 ==> rest[0].category == c;
      }
    }
  }

  /** Some record has category `c`: `c` is a key of `by_category`. */
  predicate Populated(agents: seq<Record>, c: Category) {
    exists k :: 0 <= k < |agents| && agents[k].category == c
  }

  /** A category's group is non-empty exactly when the category is populated. */
  lemma {:induction false} PopulatedIffNonEmpty(agents: seq<Record>, c: Category)
    ensures Populated(agents, c) <==> |InCategory(agents, c)| > 0
  {
    if Populated(agents, c) {
      var k :| 0 <= k < |agents| && agents[k].category == c;
      assert agents[k] in InCategory(agents, c);
    }
    if |InCategory(agents, c)| > 0 {
      var a := InCategory(agents, c)[0];
      assert a in agents;
      var k :| 0 <= k < |agents| && agents[k] == a;
    }
  }

  /** The categories of `cs` whose group is non-empty, in the order of `cs`. */
  function KeepPopulated(cs: seq<Category>, agents: seq<Record>): (r: seq<Category>)
    ensures |r| <= |cs|
    ensures forall c :: c in r <==> c in cs && |InCategory(agents, c)| > 0
    decreases |cs|
  {
    if |cs| == 0 then []
    else
      var rest := KeepPopulated(cs[1..], agents);
      assert forall c :: c in cs <==> c == cs[0] || c in cs[1..];
      if |InCategory(agents, cs[0])| > 0 then [cs[0]] + rest else rest
  }

  /** `sorted_categories`: the populated categories in display order. */
  function DisplayOrder(agents: seq<Record>): seq<Category> {
    KeepPopulated(AllCategories(), agents)
  }

  /** Keeping some elements of a rank-sorted sequence leaves it rank-sorted. */
  lemma {:induction false} KeepPopulatedSorted(cs: seq<Category>, agents: seq<Record>)
    requires RankSorted(cs)
    ensures RankSorted(KeepPopulated(cs, agents))
    decreases |cs|
  {
    if |cs| > 0 {
      var rest := KeepPopulated(cs[1..], agents);
      assert RankSorted(cs[1..]) by {
        forall i, j | 0 <= i < j < |cs[1..]|
          ensures Rank(cs[1..][i].name) < Rank(cs[1..][j].name)
        {
          assert cs[1..][i] == cs[i + 1] && cs[1..][j] == cs[j + 1];
        }
      }
      KeepPopulatedSorted(cs[1..], agents);
      forall k | 0 <= k < |rest|
        ensures Rank(cs[0].name) < Rank(rest[k].name)
      {
        assert rest[k] in cs[1..];
        var m :| 0 <= m < |cs[1..]| && cs[1..][m] == rest[k];
        assert cs[m + 1] == rest[k];
      }
    }
  }

  /** The display order is sorted by rank and holds exactly the populated
      categories, when every record's category is one of `AllCategories()`. */
  lemma {:induction false} DisplayOrderCharacterised(agents: seq<Record>)
    requires forall k :: 0 <= k < |agents| ==> agents[k].category in AllCategories()
    ensures RankSorted(DisplayOrder(agents))
    ensures forall c :: c in DisplayOrder(agents) <==> Populated(agents, c)
  {
    RanksIncrease();
    KeepPopulatedSorted(AllCategories(), agents);
    forall c
      ensures c in DisplayOrder(agents) <==> Populated(agents, c)
    {
      PopulatedIffNonEmpty(agents, c);
    }
  }

  /** The tail of a rank-sorted sequence is rank-sorted and ranks above its head. */
  lemma {:induction false} RankSortedTail(a: seq<Category>)
    requires |a| > 0 && RankSorted(a)
    ensures RankSorted(a[1..])
    ensures forall c :: c in a[1..] ==> Rank(a[0].name) < Rank(c.name)
  {
    forall i, j | 0 <= i < j < |a[1..]|
      ensures Rank(a[1..][i].name) < Rank(a[1..][j].name)
    {
      assert a[1..][i] == a[i + 1] && a[1..][j] == a[j + 1];
    }
    forall c | c in a[1..]
      ensures Rank(a[0].name) < Rank(c.name)
    {
      var m :| 0 <= m < |a[1..]| && a[1..][m] == c;
      assert a[m + 1] == c;
    }
  }

  /** Two non-empty rank-sorted sequences with the same elements start alike. */
  lemma {:induction false} RankSortedSameHead(a: seq<Category>, b: seq<Category>)
    requires |a| > 0 && |b| > 0 && RankSorted(a) && RankSorted(b)
    requires forall c :: c in a <==> c in b
    ensures a[0] == b[0]
  {
    RankSortedTail(a);
    RankSortedTail(b);
    assert a[0] in b && b[0] in a;
  }

  /** Two rank-sorted sequences with the same elements are equal. */
  lemma {:induction false} RankSortedUnique(a: seq<Category>, b: seq<Category>)
    requires RankSorted(a) && RankSorted(b)
    requires forall c :: c in a <==> c in b
    ensures a == b
    decreases |a|
  {
    if |a| > 0 {
      assert a[0] in b;
      RankSortedSameHead(a, b);
      RankSortedTail(a);
      RankSortedTail(b);
      forall c
        ensures c in a[1..] <==> c in b[1..]
      {
        assert c in a <==> c == a[0] || c in a[1..];
        assert c in b <==> c == b[0] || c in b[1..];
      }
      RankSortedUnique(a[1..], b[1..]);
      assert a == [a[0]] + a[1..] && b == [b[0]] + b[1..];
    } else {
      HasMember(b);
    }
  }

  /** A non-empty sequence has a member. */
  lemma {:induction false} HasMember(b: seq<Category>)
    ensures |b| > 0 ==> exists c :: c in b
  {
    if |b| > 0 {
      assert b[0] in b;
    }
  }

  /** `sorted(by_category.keys(), key=...)`, whatever order the keys were
      inserted in, is the display order: any rank-sorted listing of the
      populated categories equals it. */
  lemma {:induction false} SortedKeysAreDisplayOrder(agents: seq<Record>, keys: seq<Category>)
    requires forall k :: 0 <= k < |agents| ==> agents[k].category in AllCategories()
    requires RankSorted(keys)
    requires forall c :: c in keys <==> Populated(agents, c)
    ensures keys == DisplayOrder(agents)
  {
    DisplayOrderCharacterised(agents);
    RankSortedUnique(keys, DisplayOrder(agents));
  }

  // ---------------------------------------------------------------------
  // Counting

  /** The sum of the group sizes of `cs`. */
  function GroupTotal(cs: seq<Category>, agents: seq<Record>): nat
    decreases |cs|
  {
    if |cs| == 0 then 0 else |InCategory(agents, cs[0])| + GroupTotal(cs[1..], agents)
  }

  /** The number of positions of `cs` holding `c`. */
  function Occurrences(cs: seq<Category>, c: Category): nat
    decreases |cs|
  {
    if |cs| == 0 then 0 else (if cs[0] == c then 1 else 0) + Occurrences(cs[1..], c)
  }

  /** Dropping empty groups does not change the total. */
  lemma {:induction false} KeepPopulatedTotal(cs: seq<Category>, agents: seq<Record>)
    ensures GroupTotal(KeepPopulated(cs, agents), agents) == GroupTotal(cs, agents)
    decreases |cs|
  {
    if |cs| > 0 {
      KeepPopulatedTotal(cs[1..], agents);
      var rest := KeepPopulated(cs[1..], agents);
      if |InCategory(agents, cs[0])| > 0 {
        assert ([cs[0]] + rest)[1..] == rest;
      }
    }
  }

  /** Adding one record to the front adds one to the group of each position
      holding its category. */
  lemma {:induction false} GroupTotalCons(cs: seq<Category>, a: Record, rest: seq<Record>)
    ensures GroupTotal(cs, [a] + rest) == Occurrences(cs, a.category) + GroupTotal(cs, rest)
    decreases |cs|
  {
    if |cs| > 0 {
      GroupTotalCons(cs[1..], a, rest);
      assert ([a] + rest)[1..] == rest;
    }
  }

  /** A category occurs once in a sequence without repetitions that holds it. */
  lemma {:induction false} OccursOnce(cs: seq<Category>, c: Category)
    requires forall i, j :: 0 <= i < j < |cs| ==> cs[i] != cs[j]
    requires c in cs
    ensures Occurrences(cs, c) == 1
    decreases |cs|
  {
    if cs[0] == c {
      NotOccurring(cs[1..], c);
    } else {
      OccursOnce(cs[1..], c);
    }
  }

  /** A category that is absent occurs zero times. */
  lemma {:induction false} NotOccurring(cs: seq<Category>, c: Category)
    requires c !in cs
    ensures Occurrences(cs, c) == 0
    decreases |cs|
  {
    if |cs| > 0 {
      NotOccurring(cs[1..], c);
    }
  }

  /** Group sizes over a repetition-free list of categories that covers every
      record add up to the number of records. */
  lemma {:induction false} GroupTotalCovers(cs: seq<Category>, agents: seq<Record>)
    requires forall i, j :: 0 <= i < j < |cs| ==> cs[i] != cs[j]
    requires forall k :: 0 <= k < |agents| ==> agents[k].category in cs
    ensures GroupTotal(cs, agents) == |agents|
    decreases |agents|
  {
    if |agents| == 0 {
      EmptyGroups(cs, agents);
    } else {
      assert agents == [agents[0]] + agents[1..];
      GroupTotalCons(cs, agents[0], agents[1..]);
      OccursOnce(cs, agents[0].category);
      GroupTotalCovers(cs, agents[1..]);
    }
  }

  /** With no records every group is empty. */
  lemma {:induction false} EmptyGroups(cs: seq<Category>, agents: seq<Record>)
    requires |agents| == 0
    ensures GroupTotal(cs, agents) == 0
    decreases |cs|
  {
    if |cs| > 0 {
      EmptyGroups(cs[1..], agents);
    }
  }

  /** The per-category counts of the index add up to the total number of
      agents: every agent is listed under exactly one category. */
  lemma {:induction false} GroupCountsAddUp(agents: seq<Record>)
    requires forall k :: 0 <= k < |agents| ==> agents[k].category in AllCategories()
    ensures GroupTotal(DisplayOrder(agents), agents) == |agents|
  {
    CategoryNamesDistinct();
    KeepPopulatedTotal(AllCategories(), agents);
    GroupTotalCovers(AllCategories(), agents);
  }

  /** Each record belongs to the group of its own category and of no other
      displayed category. */
  lemma {:induction false} EachAgentInOneGroup(agents: seq<Record>, k: nat)
    requires forall i :: 0 <= i < |agents| ==> agents[i].category in AllCategories()
    requires k < |agents|
    ensures agents[k].category in DisplayOrder(agents)
    ensures agents[k] in InCategory(agents, agents[k].category)
    ensures forall c :: c in DisplayOrder(agents) && c != agents[k].category ==> agents[k] !in InCategory(agents, c)
  {
    DisplayOrderCharacterised(agents);
  }
}

=== FILE: render.dfy ===
/**
 The text pieces `generate_docs` assembles the document from: the anchor a
 category's index entry links to, the shortened description of the quick
 reference table, an agent's metadata line, the table rows and the block
 each agent gets in its category section.
 */
module Render {
  import opened Strings
  import opened Wrappers
  import opened Categories
  import opened Agent
  import opened Sorting
  import opened Grouping

  // ---------------------------------------------------------------------
  // Anchors

  /** `category.lower().replace(' ', '-').replace('&', '')` */
  function Anchor(name: string): (r: string)
    ensures ' ' !in r && '&' !in r
    ensures forall x :: x in r ==> !('A' <= x <= 'Z')
    ensures |r| <= |name|
    ensures '\n' !in name ==> '\n' !in r
    ensures '&' !in name ==>
              && |r| == |name|
              && forall i :: 0 <= i < |name| ==> r[i] == if name[i] == ' ' then '-' else LowerChar(name[i])
  {
    var lowered := Lower(name);
    var dashed := MapChar(lowered, ' ', '-');
    assert '&' !in name ==> '&' !in dashed by {
      if '&' in dashed {
        var i :| 0 <= i < |dashed| && dashed[i] == '&';
        assert name[i] == '&';
      }
    }
    assert '&' !in name ==> DropChar(dashed, '&') == dashed by {
      if '&' !in name {
        DropAbsent(dashed, '&');
      }
    }
    assert forall x :: x in dashed ==> !('A' <= x <= 'Z') && x != ' ' by {
      forall x | x in dashed
        ensures !('A' <= x <= 'Z') && x != ' '
      {
        var i :| 0 <= i < |dashed| && dashed[i] == x;
      }
    }
    assert '\n' !in name ==> '\n' !in dashed by {
      if '\n' in dashed {
        var i :| 0 <= i < |dashed| && dashed[i] == '\n';
        assert name[i] == '\n';
      }
    }
    DropChar(dashed, '&')
  }

  /** A name that is already lower case, without spaces or ampersands, is its
      own anchor. */
  lemma {:induction false} PlainNameIsItsAnchor(name: string)
    requires forall x :: x in name ==> !('A' <= x <= 'Z') && x != ' ' && x != '&'
    ensures Anchor(name) == name
  {
    var dashed := MapChar(Lower(name), ' ', '-');
    assert dashed == name by {
      forall i | 0 <= i < |name|
        ensures dashed[i] == name[i]
      {
        assert name[i] in name;
      }
    }
    DropAbsent(name, '&');
  }

  /** Removing a character that does not occur changes nothing. */
  lemma {:induction false} DropAbsent(s: string, c: char)
    requires c !in s
    ensures DropChar(s, c) == s
    decreases |s|
  {
    if |s| > 0 {
      assert s[0] in s;
      assert forall x :: x in s[1..] ==> x in s;
      DropAbsent(s[1..], c);
      assert s == [s[0]] + s[1..];
    }
  }

  /** Words free of spaces and ampersands stay free of them when lowered. */
  predicate PlainWord(w: string) {
    forall x :: x in w ==> x != ' ' && x != '&'
  }

  lemma {:induction false} LowerPlainWord(w: string)
    requires PlainWord(w)
    ensures PlainWord(Lower(w))
  {
    forall x | x in Lower(w)
      ensures x != ' ' && x != '&'
    {
      var i :| 0 <= i < |w| && Lower(w)[i] == x;
      assert w[i] in w;
    }
  }

  /** A single word links to its lowered form: `Django` to `django`. */
  lemma {:induction false} PlainWordAnchor(w: string)
    requires PlainWord(w)
    ensures Anchor(w) == Lower(w)
  {
    assert '&' !in w;
    assert forall i :: 0 <= i < |w| ==> w[i] != ' ' by {
      forall i | 0 <= i < |w|
        ensures w[i] != ' '
      {
        assert w[i] in w;
      }
    }
  }

  /** The anchor of one of the taxonomy's one-word names. */
  lemma DjangoAnchor()
    ensures Anchor("Django") == "django"
  {
    PlainWordAnchor("Django");
    assert Lower("Django") == "django";
  }

  /** A two-word name links to its lowered words joined by one hyphen. */
  lemma {:induction false} SpacedAnchor(a: string, b: string)
    requires PlainWord(a) && PlainWord(b)
    ensures Anchor(a + " " + b) == Lower(a) + "-" + Lower(b)
  {
    var n := a + " " + b;
    var want := Lower(a) + "-" + Lower(b);
    LowerPlainWord(a);
    LowerPlainWord(b);
    var dashed := MapChar(Lower(n), ' ', '-');
    assert dashed == want by {
      forall i | 0 <= i < |n|
        ensures dashed[i] == want[i]
      {
        if i < |a| {
          assert n[i] == a[i] && a[i] in a;
        } else if i > |a| {
          assert n[i] == b[i - |a| - 1] && b[i - |a| - 1] in b;
        }
      }
    }
    DropAbsent(want, '&');
  }

  /** A name `A & B` links to its lowered words joined by two hyphens: the
      spaces become hyphens and the ampersand disappears. */
  lemma {:induction false} AmpersandAnchor(a: string, b: string)
    requires PlainWord(a) && PlainWord(b)
    ensures Anchor(a + " & " + b) == Lower(a) + "--" + Lower(b)
  {
    var n := a + " & " + b;
    var la, lb := Lower(a), Lower(b);
    var want := la + "-&-" + lb;
    LowerPlainWord(a);
    LowerPlainWord(b);
    var dashed := MapChar(Lower(n), ' ', '-');
    assert dashed == want by {
      forall i | 0 <= i < |n|
        ensures dashed[i] == want[i]
      {
        if i < |a| {
          assert n[i] == a[i] && a[i] in a;
        } else if i >= |a| + 3 {
          assert n[i] == b[i - |a| - 3] && b[i - |a| - 3] in b;
        }
      }
    }
    assert want == (la + "-") + "&" + ("-" + lb);
    DropOne(la + "-", "-" + lb);
    assert (la + "-") + ("-" + lb) == la + "--" + lb;
  }

  /** The anchor of `Data & ML`, for instance, is `data--ml`. */
  lemma DataAndMlAnchor()
    ensures Anchor("Data & ML") == "data--ml"
  {
    assert "Data & ML" == "Data" + " & " + "ML";
    AmpersandAnchor("Data", "ML");
    LowerDataMl();
    assert "data" + "--" + "ml" == "data--ml";
  }

  lemma LowerDataMl()
    ensures Lower("Data") == "data" && Lower("ML") == "ml"
  {
    assert Lower("Data") == "data";
    assert Lower("ML") == "ml";
  }

  /** Removing the only ampersand of `a + "&" + b` glues `a` to `b`. */
  lemma {:induction false} DropOne(a: string, b: string)
    requires '&' !in a && '&' !in b
    ensures DropChar(a + "&" + b, '&') == a + b
    decreases |a|
  {
    if |a| == 0 {
      assert a + "&" + b == "&" + b;
      assert ("&" + b)[1..] == b;
      DropAbsent(b, '&');
    } else {
      assert a[0] in a;
      assert forall x :: x in a[1..] ==> x in a;
      assert (a + "&" + b)[1..] == a[1..] + "&" + b;
      DropOne(a[1..], b);
      assert a + b == [a[0]] + (a[1..] + b);
    }
  }

  // ---------------------------------------------------------------------
  // The quick reference table

  /** Descriptions longer than this are cut in the quick reference. */
  const DescriptionWidth: nat := 55
  const Ellipsis: string := "..."

  /** `d[:55] + "..." if len(d) > 55 else d` */
  function Truncate(d: string): (r: string)
    ensures |r| <= DescriptionWidth + |Ellipsis|
    ensures |d| <= DescriptionWidth ==> r == d
    ensures |d| > DescriptionWidth ==>
              && |r| == DescriptionWidth + |Ellipsis|
              && StartsWith(r, d[..DescriptionWidth])
              && EndsWith(r, Ellipsis)
    ensures '\n' !in d ==> '\n' !in r
  {
    if |d| > DescriptionWidth then
      var r := d[..DescriptionWidth] + Ellipsis;
      assert r[..DescriptionWidth] == d[..DescriptionWidth];
      assert r[|r| - |Ellipsis|..] == Ellipsis;
      assert forall x :: x in d[..DescriptionWidth] ==> x in d;
      r
    else
      d
  }

  /** Shortening twice is shortening once. */
  lemma TruncateIdempotent(d: string)
    ensures Truncate(Truncate(d)) == Truncate(d)
  {
    if |d| > DescriptionWidth {
      var r := Truncate(d);
      assert r[..DescriptionWidth] == d[..DescriptionWidth];
      assert r[DescriptionWidth..] == Ellipsis;
      assert r == r[..DescriptionWidth] + r[DescriptionWidth..];
    }
  }

  /** A description comes through unchanged exactly when it fits, or when it is
      already a shortened description. */
  lemma TruncateFixedPoints(d: string)
    ensures Truncate(d) == d <==>
              |d| <= DescriptionWidth
              || (|d| == DescriptionWidth + |Ellipsis| && d[DescriptionWidth..] == Ellipsis)
  {
    if |d| > DescriptionWidth {
      var r := Truncate(d);
      assert r[DescriptionWidth..] == Ellipsis;
      if |d| == DescriptionWidth + |Ellipsis| && d[DescriptionWidth..] == Ellipsis {
        assert d == d[..DescriptionWidth] + d[DescriptionWidth..];
      }
    }
  }

  /** The source column. */
  function SourceLabel(rec: Record): string {
    if rec.isExternal then "external" else "custom"
  }

  /** A Markdown table row: the cells between `| ` and ` |`, separated by ` | `. */
  function TableRow(cells: seq<string>): string {
    "| " + Join(cells, " | ") + " |"
  }

  /** Each cell with the blank on either side that the row puts around it. */
  function Padded(cells: seq<string>): (ps: seq<string>)
    ensures |ps| == |cells|
    ensures forall i :: 0 <= i < |cells| ==> ps[i] == " " + cells[i] + " "
  {
    seq(|cells|, i requires 0 <= i < |cells| => " " + cells[i] + " ")
  }

  /** The quick reference columns of a record: the filename as code, the
      shortened description, the category with its glyph, and the source. */
  function QuickCells(rec: Record): seq<string> {
    ["`" + rec.filename + "`", Truncate(rec.description), rec.category.emoji + " " + rec.category.name, SourceLabel(rec)]
  }

  /** One row of the quick reference table. */
  function QuickRow(rec: Record): (r: string)
    ensures r == TableRow(QuickCells(rec))
    ensures StartsWith(r, "| `" + rec.filename + "` | ")
    ensures EndsWith(r, " | " + SourceLabel(rec) + " |")
  {
    var a := "`" + rec.filename + "`";
    var b := Truncate(rec.description);
    var c := rec.category.emoji + " " + rec.category.name;
    var d := SourceLabel(rec);
    TableRowOfFour(a, b, c, d);
    Framed("| " + a + " | ", b + " | " + c, " | " + d + " |");
    "| " + a + " | " + (b + " | " + c) + (" | " + d + " |")
  }

  /** A text starts with its first piece and ends with its last. */
  lemma {:induction false} Framed(head: string, mid: string, tail: string)
    ensures StartsWith(head + mid + tail, head)
    ensures EndsWith(head + mid + tail, tail)
  {
    var r := head + mid + tail;
    assert r[..|head|] == head;
    assert r[|r| - |tail|..] == tail;
  }

  /** A row of four cells, written out. */
  lemma {:induction false} TableRowOfFour(a: string, b: string, c: string, d: string)
    ensures TableRow([a, b, c, d]) == "| " + a + " | " + (b + " | " + c) + (" | " + d + " |")
  {
    var cells := [a, b, c, d];
    assert cells[1..][1..][1..] == [d];
    assert Join(cells[2..], " | ") == c + " | " + d;
    assert Join(cells[1..], " | ") == b + " | " + (c + " | " + d);
  }

  /** Splitting a row at `|` gives back its padded cells, when no cell holds a
      `|`, between the empty texts before the first and after the last bar. */
  lemma {:induction false} TableRowCells(cells: seq<string>)
    requires |cells| >= 1
    requires forall i :: 0 <= i < |cells| ==> '|' !in cells[i]
    ensures Split(TableRow(cells), '|') == [""] + Padded(cells) + [""]
  {
    var ps := Padded(cells);
    PaddedJoin(cells);
    JoinFrontEmpty(ps + [""], "|");
    JoinBackEmpty(ps, "|");
    assert [""] + ps + [""] == [""] + (ps + [""]);
    assert TableRow(cells) == Join([""] + ps + [""], "|");
    var all := [""] + ps + [""];
    forall i | 0 <= i < |all|
      ensures '|' !in all[i]
    {
      if 1 <= i <= |ps| {
        assert all[i] == " " + cells[i - 1] + " ";
      }
    }
    SplitJoin(all, '|');
  }

  /** Joining padded cells at `|` is joining the cells at ` | `, padded once. */
  lemma {:induction false} PaddedJoin(cells: seq<string>)
    requires |cells| >= 1
    ensures Join(Padded(cells), "|") == " " + Join(cells, " | ") + " "
    decreases |cells|
  {
    if |cells| > 1 {
      PaddedJoin(cells[1..]);
      assert Padded(cells)[1..] == Padded(cells[1..]);
    }
  }

  /** An empty first part puts one separator in front. */
  lemma {:induction false} JoinFrontEmpty(parts: seq<string>, sep: string)
    requires |parts| >= 1
    ensures Join([""] + parts, sep) == sep + Join(parts, sep)
  {
    assert ([""] + parts)[1..] == parts;
  }

  /** An empty last part puts one separator behind. */
  lemma {:induction false} JoinBackEmpty(parts: seq<string>, sep: string)
    requires |parts| >= 1
    ensures Join(parts + [""], sep) == Join(parts, sep) + sep
    decreases |parts|
  {
    if |parts| == 1 {
      assert (parts + [""])[1..] == [""];
    } else {
      assert (parts + [""])[1..] == parts[1..] + [""];
      JoinBackEmpty(parts[1..], sep);
    }
  }

  /** A record whose filename, shortened description and category hold no `|`
      splits back into its four columns. */
  lemma QuickRowCells(rec: Record)
    requires '|' !in rec.filename && '|' !in Truncate(rec.description)
    requires '|' !in rec.category.emoji && '|' !in rec.category.name
    ensures Split(QuickRow(rec), '|') ==
              ["", " `" + rec.filename + "` ", " " + Truncate(rec.description) + " ",
               " " + rec.category.emoji + " " + rec.category.name + " ", " " + SourceLabel(rec) + " ", ""]
  {
    QuickCellsBarFree(rec);
    TableRowCells(QuickCells(rec));
    PaddedQuickCells(rec);
  }

  lemma QuickCellsBarFree(rec: Record)
    requires '|' !in rec.filename && '|' !in Truncate(rec.description)
    requires '|' !in rec.category.emoji && '|' !in rec.category.name
    ensures |QuickCells(rec)| == 4
    ensures forall i :: 0 <= i < 4 ==> '|' !in QuickCells(rec)[i]
  {
    assert '|' !in SourceLabel(rec);
    assert '|' !in "`" + rec.filename + "`";
    assert '|' !in rec.category.emoji + " " + rec.category.name;
  }

  /** The quick reference columns, each with its surrounding blanks. */
  lemma PaddedQuickCells(rec: Record)
    ensures Padded(QuickCells(rec)) ==
              [" `" + rec.filename + "` ", " " + Truncate(rec.description) + " ",
               " " + rec.category.emoji + " " + rec.category.name + " ", " " + SourceLabel(rec) + " "]
  {
    var ps := Padded(QuickCells(rec));
    assert ps[0] == " " + ("`" + rec.filename + "`") + " " == " `" + rec.filename + "` ";
    assert ps[2] == " " + (rec.category.emoji + " " + rec.category.name) + " ";
    var want := [" `" + rec.filename + "` ", " " + Truncate(rec.description) + " ",
                 " " + rec.category.emoji + " " + rec.category.name + " ", " " + SourceLabel(rec) + " "];
    assert ps[0] == want[0] && ps[1] == want[1] && ps[2] == want[2] && ps[3] == want[3];
    assert ps == want;
  }

  /** The source column reads `external` exactly for external records, and
      `custom` exactly for local ones. */
  lemma QuickRowSource(rec: Record)
    ensures EndsWith(QuickRow(rec), " | external |") <==> rec.isExternal
    ensures EndsWith(QuickRow(rec), " | custom |") <==> !rec.isExternal
  {
    LabelEnding(QuickRow(rec), SourceLabel(rec));
  }

  /** A text ending in one source cell does not end in the other. */
  lemma {:induction false} LabelEnding(r: string, source: string)
    requires source == "external" || source == "custom"
    requires EndsWith(r, " | " + source + " |")
    ensures EndsWith(r, " | external |") <==> source == "external"
    ensures EndsWith(r, " | custom |") <==> source == "custom"
  {
    var tail := " | " + source + " |";
    assert r[|r| - 3] == tail[|tail| - 3];
    assert (" | external |")[10] == 'l' && (" | custom |")[8] == 'm';
  }

  /** The rows of the quick reference: every record, sorted by filename. */
  function QuickRows(agents: seq<Record>): (rows: seq<string>)
    ensures |rows| == |agents|
    ensures forall i :: 0 <= i < |rows| ==> rows[i] == QuickRow(SortByFilename(agents)[i])
  {
    var sorted := SortByFilename(agents);
    seq(|sorted|, i requires 0 <= i < |sorted| => QuickRow(sorted[i]))
  }

  /** Every record has a row, and the rows follow the filenames' order. */
  lemma {:induction false} QuickRowsCoverAgents(agents: seq<Record>, k: nat)
    requires k < |agents|
    ensures exists i :: 0 <= i < |agents| && QuickRows(agents)[i] == QuickRow(agents[k])
    ensures forall i, j :: 0 <= i < j < |agents| ==>
              LexLe(SortByFilename(agents)[i].filename, SortByFilename(agents)[j].filename)
  {
    var sorted := SortByFilename(agents);
    assert agents[k] in multiset(agents);
    assert agents[k] in multiset(sorted);
    var i :| 0 <= i < |sorted| && sorted[i] == agents[k];
    assert QuickRows(agents)[i] == QuickRow(agents[k]);
  }

  // ---------------------------------------------------------------------
  // Metadata

  const SourceLink: string := "[wshobson/agents]" + "(https://github.com/wshobson/agents)"
  const MetaSeparator: string := " | "

  function ModelItem(model: string): string { "**Model:** `" + model + "`" }
  function TriggersItem(triggers: string): string { "**Triggers:** " + triggers }
  function VersionItem(version: string): string { "**Version:** " + version }
  const SourceItem: string := "**Source:** " + SourceLink

  /** `agent['model'] and agent['model'] != '-'` */
  predicate ModelShown(rec: Record) {
    rec.model != "" && rec.model != NoModel
  }

  /** `agent['triggers']`: present and non-empty. */
  predicate TriggersShown(rec: Record) {
    rec.triggers.Some? && rec.triggers.value != ""
  }

  /** `agent['version']`: non-empty. */
  predicate VersionShown(rec: Record) {
    rec.version != ""
  }

  function Bit(b: bool): nat { if b then 1 else 0 }

  /** `meta_items`: model, triggers, version and source, each when it applies,
      in that order. */
  function MetaItems(rec: Record): (items: seq<string>)
    ensures |items| == Bit(ModelShown(rec)) + Bit(TriggersShown(rec)) + Bit(VersionShown(rec)) + Bit(rec.isExternal)
    ensures ModelShown(rec) ==> items[0] == ModelItem(rec.model)
    ensures rec.isExternal ==> items[|items| - 1] == SourceItem
    ensures ModelShown(rec) <==> ModelItem(rec.model) in items
    ensures rec.isExternal <==> SourceItem in items
    ensures TriggersShown(rec) ==> items[Bit(ModelShown(rec))] == TriggersItem(rec.triggers.value)
    ensures rec.triggers.Some? ==> (TriggersShown(rec) <==> TriggersItem(rec.triggers.value) in items)
    ensures VersionShown(rec) ==>
              items[Bit(ModelShown(rec)) + Bit(TriggersShown(rec))] == VersionItem(rec.version)
    ensures VersionShown(rec) <==> VersionItem(rec.version) in items
  {
    var m := if ModelShown(rec) then [ModelItem(rec.model)] else [];
    var t := if TriggersShown(rec) then [TriggersItem(rec.triggers.value)] else [];
    var v := if VersionShown(rec) then [VersionItem(rec.version)] else [];
    var s := if rec.isExternal then [SourceItem] else [];
    ItemsDiffer(rec);
    m + t + v + s
  }

  /** The four kinds of item start differently: `**M`, `**T`, `**V`, `**S`. */
  lemma ItemsDiffer(rec: Record)
    ensures rec.triggers.Some? ==> ModelItem(rec.model) != TriggersItem(rec.triggers.value)
    ensures ModelItem(rec.model) != VersionItem(rec.version)
    ensures ModelItem(rec.model) != SourceItem
    ensures rec.triggers.Some? ==> SourceItem != TriggersItem(rec.triggers.value)
    ensures SourceItem != VersionItem(rec.version)
    ensures rec.triggers.Some? ==> VersionItem(rec.version) != TriggersItem(rec.triggers.value)
  {
    assert ModelItem(rec.model)[2] == 'M';
    assert VersionItem(rec.version)[2] == 'V';
    assert SourceItem[2] == 'S';
    if rec.triggers.Some? {
      assert TriggersItem(rec.triggers.value)[2] == 'T';
    }
  }

  /** The metadata line, when there is anything to show. */
  function MetaLine(rec: Record): (r: Option<string>)
    ensures r.None? <==> !ModelShown(rec) && !TriggersShown(rec) && !VersionShown(rec) && !rec.isExternal
    ensures r.Some? && ModelShown(rec) ==> StartsWith(r.value, ModelItem(rec.model))
    ensures r.Some? && rec.isExternal ==> EndsWith(r.value, SourceItem)
    ensures r.Some? ==> r.value == Join(MetaItems(rec), MetaSeparator)
  {
    var items := MetaItems(rec);
    if |items| == 0 then None
    else
      JoinStartsWithFirst(items, MetaSeparator);
      JoinEndsWithLast(items, MetaSeparator);
      Some(Join(items, MetaSeparator))
  }

  /** A join starts with its first part. */
  lemma {:induction false} JoinStartsWithFirst(parts: seq<string>, sep: string)
    requires |parts| > 0
    ensures StartsWith(Join(parts, sep), parts[0])
  {
    if |parts| > 1 {
      var j := Join(parts, sep);
      assert j == parts[0] + (sep + Join(parts[1..], sep));
      assert j[..|parts[0]|] == parts[0];
    }
  }

  /** A join ends with its last part. */
  lemma {:induction false} JoinEndsWithLast(parts: seq<string>, sep: string)
    requires |parts| > 0
    ensures EndsWith(Join(parts, sep), parts[|parts| - 1])
    decreases |parts|
  {
    if |parts| > 1 {
      var rest := Join(parts[1..], sep);
      JoinEndsWithLast(parts[1..], sep);
      var last := parts[|parts| - 1];
      var j := Join(parts, sep);
      assert j == (parts[0] + sep) + rest;
      assert j[|j| - |last|..] == rest[|rest| - |last|..];
    }
  }

  /** A join of newline-free parts around a newline-free separator is newline-free. */
  lemma {:induction false} JoinNoNewline(parts: seq<string>, sep: string)
    requires '\n' !in sep
    requires forall i :: 0 <= i < |parts| ==> '\n' !in parts[i]
    ensures '\n' !in Join(parts, sep)
    decreases |parts|
  {
    if |parts| > 1 {
      JoinNoNewline(parts[1..], sep);
    }
  }

  /** A local record whose header names no model and no version, from a document
      without a trigger section, shows no metadata line: the `-` placeholder for
      a missing model is never displayed. */
  lemma DefaultsShowNoMetadata(m: map<string, string>, stem: string)
    requires "model" !in m && "version" !in m
    ensures MetaLine(RecordFrom(m, stem, None, false)).None?
  {
  }

  /** An external record always shows a metadata line, ending with the link to
      the repository it comes from. */
  lemma ExternalShowsSource(rec: Record)
    requires rec.isExternal
    ensures MetaLine(rec).Some? && EndsWith(MetaLine(rec).value, SourceItem)
  {
  }

  // ---------------------------------------------------------------------
  // Category sections

  const ExternalBadge: string := " \U{2197}"
  const Divider: string := "---"

  /** `### filename`, marked when the agent is external. */
  function AgentHeading(rec: Record): (r: string)
    ensures StartsWith(r, "### " + rec.filename)
    ensures rec.isExternal ==> EndsWith(r, ExternalBadge) && |r| == 4 + |rec.filename| + |ExternalBadge|
    ensures !rec.isExternal ==> r == "### " + rec.filename
  {
    var head := "### " + rec.filename;
    var r := head + (if rec.isExternal then ExternalBadge else "");
    assert r[..|head|] == head;
    r
  }

  /** The lines one agent contributes to its category section. */
  function AgentBlock(rec: Record): (ls: seq<string>)
    ensures |ls| == if MetaLine(rec).Some? then 8 else 6
    ensures ls[0] == AgentHeading(rec) && ls[2] == "> " + rec.description
    ensures ls[|ls| - 2] == Divider && ls[|ls| - 1] == ""
    ensures MetaLine(rec).Some? ==> ls[4] == MetaLine(rec).value
    ensures ls[1] == "" && ls[3] == ""
    ensures MetaLine(rec).Some? ==> ls[5] == ""
  {
    [AgentHeading(rec), "", "> " + rec.description, ""]
    + (match MetaLine(rec) case Some(line) => [line, ""] case None => [])
    + [Divider, ""]
  }

  /** The blocks of `rs`, one after the other. */
  function Blocks(rs: seq<Record>): (ls: seq<string>)
    ensures 6 * |rs| <= |ls| <= 8 * |rs|
    decreases |rs|
  {
    if |rs| == 0 then [] else AgentBlock(rs[0]) + Blocks(rs[1..])
  }

  /** The lines of two runs of records are the lines of the first, then those
      of the second. */
  lemma {:induction false} BlocksAppend(a: seq<Record>, b: seq<Record>)
    ensures Blocks(a + b) == Blocks(a) + Blocks(b)
    decreases |a|
  {
    if |a| == 0 {
      assert a + b == b;
    } else {
      assert a + b == [a[0]] + (a[1..] + b);
      assert a == [a[0]] + a[1..];
      BlocksCons(a[0], a[1..] + b);
      BlocksCons(a[0], a[1..]);
      BlocksAppend(a[1..], b);
      Regroup(Blocks(a + b), Blocks(a), AgentBlock(a[0]), Blocks(a[1..] + b), Blocks(a[1..]), Blocks(b));
    }
  }

  /** `whole == x + (y + z)` and `front == x + y` give `whole == front + z`. */
  lemma {:induction false} Regroup(whole: seq<string>, front: seq<string>, x: seq<string>,
                                   yz: seq<string>, y: seq<string>, z: seq<string>)
    requires whole == x + yz && yz == y + z && front == x + y
    ensures whole == front + z
  {
  }

  /** A record in front contributes its block in front. */
  lemma {:induction false} BlocksCons(rec: Record, rs: seq<Record>)
    ensures Blocks([rec] + rs) == AgentBlock(rec) + Blocks(rs)
  {
    assert ([rec] + rs)[0] == rec;
    assert ([rec] + rs)[1..] == rs;
  }

  /** One record contributes exactly its own block. */
  lemma BlocksSingle(rec: Record)
    ensures Blocks([rec]) == AgentBlock(rec)
  {
    assert [rec][1..] == [];
  }

  /** Every record's block, and so its heading, is among the lines, in the
      records' order. */
  lemma {:induction false} BlockOfEach(rs: seq<Record>, k: nat)
    requires k < |rs|
    ensures Blocks(rs) == Blocks(rs[..k]) + AgentBlock(rs[k]) + Blocks(rs[k + 1..])
    ensures AgentHeading(rs[k]) in Blocks(rs)
  {
    assert rs == rs[..k] + [rs[k]] + rs[k + 1..];
    BlocksAppend(rs[..k] + [rs[k]], rs[k + 1..]);
    BlocksAppend(rs[..k], [rs[k]]);
    BlocksSingle(rs[k]);
    var ls := Blocks(rs);
    assert ls[|Blocks(rs[..k])|] == AgentBlock(rs[k])[0];
  }

  /** `sorted(by_category[c], key=filename)` */
  function SectionMembers(agents: seq<Record>, c: Category): (r: seq<Record>)
    ensures SortedByFilename(r)
    ensures |r| == |InCategory(agents, c)|
    ensures multiset(r) == multiset(InCategory(agents, c))
    ensures forall a :: a in r <==> a in agents && a.category == c
  {
    var r := SortByFilename(InCategory(agents, c));
    assert forall a :: a in r <==> a in multiset(r);
    assert forall a :: a in InCategory(agents, c) <==> a in multiset(InCategory(agents, c));
    r
  }

  /** `## emoji category` */
  function SectionHeading(c: Category): string {
    "## " + c.emoji + " " + c.name
  }

  /** The section of category `c`: its heading, then its agents' blocks. */
  function SectionLines(agents: seq<Record>, c: Category): seq<string> {
    [SectionHeading(c), ""] + Blocks(SectionMembers(agents, c))
  }

  /** Every agent appears in the section of its own category, and in no other
      section of the document. */
  lemma {:induction false} EachAgentInItsSection(agents: seq<Record>, k: nat)
    requires forall i :: 0 <= i < |agents| ==> agents[i].category in AllCategories()
    requires k < |agents|
    ensures agents[k].category in DisplayOrder(agents)
    ensures agents[k] in SectionMembers(agents, agents[k].category)
    ensures forall c :: c in DisplayOrder(agents) && c != agents[k].category ==>
              agents[k] !in SectionMembers(agents, c)
  {
    EachAgentInOneGroup(agents, k);
  }

  /** The sections list as many agents as there are. */
  lemma {:induction false} SectionSizesAddUp(agents: seq<Record>)
    requires forall i :: 0 <= i < |agents| ==> agents[i].category in AllCategories()
    ensures SectionTotal(DisplayOrder(agents), agents) == |agents|
  {
    GroupCountsAddUp(agents);
    SectionTotalIsGroupTotal(DisplayOrder(agents), agents);
  }

  /** The number of agents the sections of `cs` list. */
  function SectionTotal(cs: seq<Category>, agents: seq<Record>): nat
    decreases |cs|
  {
    if |cs| == 0 then 0 else |SectionMembers(agents, cs[0])| + SectionTotal(cs[1..], agents)
  }

  /** Sorting a group keeps its size. */
  lemma {:induction false} SectionTotalIsGroupTotal(cs: seq<Category>, agents: seq<Record>)
    ensures SectionTotal(cs, agents) == GroupTotal(cs, agents)
    decreases |cs|
  {
    if |cs| > 0 {
      SectionTotalIsGroupTotal(cs[1..], agents);
    }
  }
}

=== FILE: sorting.dfy ===
/**
 `sorted(agents, key=lambda x: x['filename'])`: a stable sort of records by
 filename under code-point order, written as insertion sort. Each record is
 inserted in front of the first record whose filename is not smaller, so
 records with equal filenames keep their original relative order.
 */
module Sorting {
  import opened Strings
  import opened Agent

  /** Filenames never decrease along `rs`. */
  predicate SortedByFilename(rs: seq<Record>) {
    forall i, j :: 0 <= i < j < |rs| ==> LexLe(rs[i].filename, rs[j].filename)
  }

  /** The records of `rs` whose filename is `f`, in their order in `rs`. */
  function WithFilename(rs: seq<Record>, f: string): (r: seq<Record>)
    ensures |r| <= |rs|
    decreases |rs|
  {
    if |rs| == 0 then []
    else if rs[0].filename == f then [rs[0]] + WithFilename(rs[1..], f)
    else WithFilename(rs[1..], f)
  }

  /** Inserting `x` in front of the first record not smaller than it. */
  function Insert(x: Record, rs: seq<Record>): (r: seq<Record>)
    ensures multiset(r) == multiset(rs) + multiset{x}
    decreases |rs|
  {
    if |rs| == 0 || LexLe(x.filename, rs[0].filename) then
      [x] + rs
    else
      assert rs == [rs[0]] + rs[1..];
      [rs[0]] + Insert(x, rs[1..])
  }

  /** Insertion keeps a sorted sequence sorted. */
  lemma {:induction false} InsertSorted(x: Record, rs: seq<Record>)
    requires SortedByFilename(rs)
    ensures SortedByFilename(Insert(x, rs))
    decreases |rs|
  {
    if |rs| == 0 {
    } else if LexLe(x.filename, rs[0].filename) {
      forall j | 0 < j < |rs|
        ensures LexLe(x.filename, rs[j].filename)
      {
        LexLeTrans(x.filename, rs[0].filename, rs[j].filename);
      }
      ConsSorted(x, rs);
    } else {
      LexLeTotal(x.filename, rs[0].filename);
      var tail := Insert(x, rs[1..]);
      InsertSorted(x, rs[1..]);
      forall j | 0 <= j < |tail|
        ensures LexLe(rs[0].filename, tail[j].filename)
      {
        assert tail[j] in multiset(tail);
        assert tail[j] == x || tail[j] in multiset(rs[1..]);
        if tail[j] != x {
          var k :| 0 <= k < |rs[1..]| && rs[1..][k] == tail[j];
          assert LexLe(rs[0].filename, rs[k + 1].filename);
        }
      }
      ConsSorted(rs[0], tail);
    }
  }

  /** A record no larger than the first of a sorted sequence can go in front. */
  lemma {:induction false} ConsSorted(x: Record, rs: seq<Record>)
    requires SortedByFilename(rs)
    requires forall j :: 0 <= j < |rs| ==> LexLe(x.filename, rs[j].filename)
    ensures SortedByFilename([x] + rs)
  {
    var r := [x] + rs;
    forall i, j | 0 <= i < j < |r|
      ensures LexLe(r[i].filename, r[j].filename)
    {
      if i > 0 {
        assert r[i] == rs[i - 1] && r[j] == rs[j - 1];
      } else {
        assert r[j] == rs[j - 1];
      }
    }
  }

  /** Insertion adds `x` to exactly its own filename's records, and in front
      of them. */
  lemma {:induction false} InsertWithFilename(x: Record, rs: seq<Record>, f: string)
    ensures WithFilename(Insert(x, rs), f)
            == if x.filename == f then [x] + WithFilename(rs, f) else WithFilename(rs, f)
    decreases |rs|
  {
    if |rs| == 0 || LexLe(x.filename, rs[0].filename) {
      assert ([x] + rs)[1..] == rs;
    } else {
      LexLeRefl(x.filename);
      assert rs[0].filename != x.filename;
      InsertWithFilename(x, rs[1..], f);
      assert ([rs[0]] + Insert(x, rs[1..]))[1..] == Insert(x, rs[1..]);
    }
  }

  /** The stable sort. */
  function SortByFilename(rs: seq<Record>): (r: seq<Record>)
    ensures multiset(r) == multiset(rs)
    ensures |r| == |rs|
    ensures SortedByFilename(r)
    decreases |rs|
  {
    if |rs| == 0 then
      []
    else
      var tail := SortByFilename(rs[1..]);
      InsertSorted(rs[0], tail);
      assert rs == [rs[0]] + rs[1..];
      assert multiset(rs) == multiset{rs[0]} + multiset(rs[1..]);
      var r := Insert(rs[0], tail);
      assert |r| == |multiset(r)|;
      r
  }

  /** Stability: for every filename, the records carrying it appear in the
      sorted sequence in the order they had before sorting. */
  lemma {:induction false} SortIsStable(rs: seq<Record>, f: string)
    ensures WithFilename(SortByFilename(rs), f) == WithFilename(rs, f)
    decreases |rs|
  {
    if |rs| > 0 {
      SortIsStable(rs[1..], f);
      InsertWithFilename(rs[0], SortByFilename(rs[1..]), f);
    }
  }

  /** Sorting a sequence that is already sorted changes nothing. */
  lemma {:induction false} SortKeepsSorted(rs: seq<Record>)
    requires SortedByFilename(rs)
    ensures SortByFilename(rs) == rs
    decreases |rs|
  {
    if |rs| > 0 {
      assert SortedByFilename(rs[1..]) by {
        forall i, j | 0 <= i < j < |rs[1..]|
          ensures LexLe(rs[1..][i].filename, rs[1..][j].filename)
        {
          assert rs[1..][i] == rs[i + 1] && rs[1..][j] == rs[j + 1];
        }
      }
      SortKeepsSorted(rs[1..]);
      if |rs| > 1 {
        assert LexLe(rs[0].filename, rs[1..][0].filename);
      }
    }
  }
}

=== FILE: strings.dfy ===
/**
 The Python `str` operations the documentation generator relies on, over
 `string` (a sequence of Unicode scalar values, like a Python `str`).
 Each is written the way CPython behaves for the arguments the generator
 passes, and each carries the property that makes it mean what it says.
 */
module Strings {
  import opened Wrappers

  /** The characters for which Python's `str.isspace()` holds. `str.strip()`
      without arguments removes exactly these, and the `\s` class of a `re`
      pattern over `str` matches exactly these. */
  const Whitespace: set<char> := {
    '\t', '\n', '\U{B}', '\U{C}', '\r',
    '\U{1C}', '\U{1D}', '\U{1E}', '\U{1F}', ' ',
    '\U{85}', '\U{A0}', '\U{1680}',
    '\U{2000}', '\U{2001}', '\U{2002}', '\U{2003}', '\U{2004}', '\U{2005}',
    '\U{2006}', '\U{2007}', '\U{2008}', '\U{2009}', '\U{200A}',
    '\U{2028}', '\U{2029}', '\U{202F}', '\U{205F}', '\U{3000}'
  }

  /** `s.startswith(p)` */
  predicate StartsWith(s: string, p: string) {
    |p| <= |s| && s[..|p|] == p
  }

  /** `s.endswith(p)` */
  predicate EndsWith(s: string, p: string) {
    |p| <= |s| && s[|s| - |p|..] == p
  }

  /** `pat` occurs in `s` starting at index `i`. */
  predicate OccursAt(s: string, pat: string, i: nat) {
    i + |pat| <= |s| && s[i..i + |pat|] == pat
  }

  /** `pat in s` */
  predicate Contains(s: string, pat: string) {
    exists i: nat :: i <= |s| && OccursAt(s, pat, i)
  }

  /** `startswith` means "is the first part of a concatenation". */
  lemma {:induction false} StartsWithIffConcat(s: string, p: string)
    ensures StartsWith(s, p) <==> exists t :: s == p + t
  {
    if StartsWith(s, p) {
      assert s == p + s[|p|..];
    }
    forall t | s == p + t
      ensures StartsWith(s, p)
    {
      assert s[..|p|] == p;
    }
  }

  /** `endswith` means "is the last part of a concatenation". */
  lemma {:induction false} EndsWithIffConcat(s: string, p: string)
    ensures EndsWith(s, p) <==> exists t :: s == t + p
  {
    if EndsWith(s, p) {
      assert s == s[..|s| - |p|] + p;
    }
    forall t | s == t + p
      ensures EndsWith(s, p)
    {
      assert s[|t|..] == p;
    }
  }

  // ---------------------------------------------------------------------
  // Stripping: `str.strip()`, `str.strip(chars)`

  /** `s.lstrip(cs)`: drop the longest prefix made of characters in `cs`. */
  function TrimStart(s: string, cs: set<char>): (r: string)
    ensures EndsWith(s, r)
    ensures forall i :: 0 <= i < |s| - |r| ==> s[i] in cs
    ensures |r| > 0 ==> r[0] !in cs
    decreases |s|
  {
    if |s| > 0 && s[0] in cs then
      var r := TrimStart(s[1..], cs);
      assert forall i :: 1 <= i < |s| ==> s[i] == s[1..][i - 1];
      assert s[|s| - |r|..] == s[1..][|s| - 1 - |r|..];
      r
    else
      s
  }

  /** Trimming stops at the first character outside `cs`. */
  lemma {:induction false} TrimStartStops(s: string, cs: set<char>, i: nat)
    requires i < |s| && s[i] !in cs
    ensures |s| - |TrimStart(s, cs)| <= i
  {
  }

  /** `s.rstrip(cs)`: drop the longest suffix made of characters in `cs`. */
  function TrimEnd(s: string, cs: set<char>): (r: string)
    ensures StartsWith(s, r)
    ensures forall i :: |r| <= i < |s| ==> s[i] in cs
    ensures |r| > 0 ==> r[|r| - 1] !in cs
    decreases |s|
  {
    if |s| > 0 && s[|s| - 1] in cs then TrimEnd(s[..|s| - 1], cs) else s
  }

  /** `s.strip(cs)`: the part of `s` left after dropping the longest prefix and
      the longest suffix made of characters in `cs` (see `StripSetSlice` and
      `StripSetExact` for the characterisation). */
  function StripSet(s: string, cs: set<char>): (r: string)
    ensures |r| <= |s|
    ensures |r| > 0 ==> r[0] !in cs && r[|r| - 1] !in cs
  {
    TrimEnd(TrimStart(s, cs), cs)
  }

  /** What `StripSet` returns is a slice of its input with only `cs`
      characters around it. */
  lemma {:induction false} StripSetSlice(s: string, cs: set<char>)
    ensures var i := |s| - |TrimStart(s, cs)|;
            var j := i + |StripSet(s, cs)|;
            && j <= |s|
            && StripSet(s, cs) == s[i..j]
            && (forall k :: 0 <= k < i ==> s[k] in cs)
            && (forall k :: j <= k < |s| ==> s[k] in cs)
  {
    var t := TrimStart(s, cs);
    var r := TrimEnd(t, cs);
    var i := |s| - |t|;
    assert t == s[i..];
    var j := i + |r|;
    assert r == s[i..j];
    forall k | j <= k < |s|
      ensures s[k] in cs
    {
      assert s[k] == t[k - i];
    }
  }

  /** `s.strip()` */
  function Strip(s: string): string {
    StripSet(s, Whitespace)
  }

  /** Dropping a prefix of `cs` characters stops at the first other character. */
  lemma {:induction false} TrimStartSkips(a: string, t: string, cs: set<char>)
    requires forall i :: 0 <= i < |a| ==> a[i] in cs
    requires |t| > 0 ==> t[0] !in cs
    ensures TrimStart(a + t, cs) == t
    decreases |a|
  {
    if |a| > 0 {
      assert (a + t)[1..] == a[1..] + t;
      TrimStartSkips(a[1..], t, cs);
    } else {
      assert a + t == t;
    }
  }

  /** Dropping a suffix of `cs` characters stops at the last other character. */
  lemma {:induction false} TrimEndSkips(t: string, b: string, cs: set<char>)
    requires forall i :: 0 <= i < |b| ==> b[i] in cs
    requires |t| > 0 ==> t[|t| - 1] !in cs
    ensures TrimEnd(t + b, cs) == t
    decreases |b|
  {
    if |b| > 0 {
      assert (t + b)[..|t + b| - 1] == t + b[..|b| - 1];
      TrimEndSkips(t, b[..|b| - 1], cs);
    } else {
      assert t + b == t;
    }
  }

  /** Stripping a text padded on both sides with `cs` characters gives back the
      text, when the text neither starts nor ends with one of them. */
  lemma {:induction false} StripSetExact(a: string, v: string, b: string, cs: set<char>)
    requires forall i :: 0 <= i < |a| ==> a[i] in cs
    requires forall i :: 0 <= i < |b| ==> b[i] in cs
    requires |v| > 0 ==> v[0] !in cs && v[|v| - 1] !in cs
    ensures StripSet(a + v + b, cs) == v
  {
    if |v| > 0 {
      assert a + v + b == a + (v + b);
      TrimStartSkips(a, v + b, cs);
      TrimEndSkips(v, b, cs);
    } else {
      assert a + v + b == (a + b) + "";
      assert forall i :: 0 <= i < |a + b| ==> (a + b)[i] in cs;
      TrimStartSkips(a + b, "", cs);
      TrimEndSkips("", "", cs);
    }
  }

  /** Stripping twice is stripping once. */
  lemma {:induction false} StripSetIdempotent(s: string, cs: set<char>)
    ensures StripSet(StripSet(s, cs), cs) == StripSet(s, cs)
  {
    var r := StripSet(s, cs);
    var t := TrimStart(r, cs);
    assert t == r;
  }

  // ---------------------------------------------------------------------
  // Searching, partitioning, splitting, joining

  /** `s.find(c)` for a single character, as an option. */
  function IndexOf(s: string, c: char): (r: Option<nat>)
    ensures r.Some? ==> r.value < |s| && s[r.value] == c && c !in s[..r.value]
    ensures r.None? ==> c !in s
    decreases |s|
  {
    if |s| == 0 then None
    else if s[0] == c then Some(0)
    else
      match IndexOf(s[1..], c)
      case None => None
      case Some(i) => Some(i + 1)
  }

  /** `s.partition(c)` when `c` occurs in `s`: the text before the first `c`
      and the text after it. */
  function Partition(s: string, c: char): (r: (string, string))
    requires c in s
    ensures s == r.0 + [c] + r.1
    ensures c !in r.0
  {
    var i := IndexOf(s, c).value;
    assert s == s[..i] + [c] + s[i + 1..];
    (s[..i], s[i + 1..])
  }

  /** `sep.join(parts)` */
  function Join(parts: seq<string>, sep: string): string
    decreases |parts|
  {
    if |parts| == 0 then ""
    else if |parts| == 1 then parts[0]
    else parts[0] + sep + Join(parts[1..], sep)
  }

  /** `''.join(parts)` */
  function Concat(parts: seq<string>): string
    decreases |parts|
  {
    if |parts| == 0 then "" else parts[0] + Concat(parts[1..])
  }

  /** `s.split(c)` for a single-character separator: the maximal pieces free of `c`,
      which `Join` glues back into `s`. */
  function Split(s: string, c: char): (r: seq<string>)
    ensures |r| >= 1
    ensures forall i :: 0 <= i < |r| ==> c !in r[i]
    ensures Join(r, [c]) == s
    decreases |s|
  {
    match IndexOf(s, c)
    case None => [s]
    case Some(i) =>
      var rest := Split(s[i + 1..], c);
      var r := [s[..i]] + rest;
      assert r[1..] == rest;
      assert s == s[..i] + [c] + s[i + 1..];
      r
  }

  /** The other half of the round trip: splitting a join of separator-free pieces
      gives the pieces back. */
  lemma {:induction false} SplitJoin(parts: seq<string>, c: char)
    requires |parts| >= 1
    requires forall i :: 0 <= i < |parts| ==> c !in parts[i]
    ensures Split(Join(parts, [c]), c) == parts
    decreases |parts|
  {
    if |parts| == 1 {
      assert Join(parts, [c]) == parts[0];
    } else {
      var p := parts[0];
      var rest := Join(parts[1..], [c]);
      assert Join(parts, [c]) == p + [c] + rest;
      SplitCons(p, c, rest);
      SplitJoin(parts[1..], c);
      assert parts == [p] + parts[1..];
    }
  }

  /** A separator-free first piece splits off on its own. */
  lemma {:induction false} SplitCons(p: string, c: char, rest: string)
    requires c !in p
    ensures Split(p + [c] + rest, c) == [p] + Split(rest, c)
  {
    var s := p + [c] + rest;
    IndexOfAfterFree(p, c, rest);
    assert s[..|p|] == p;
    assert s[|p| + 1..] == rest;
  }

  /** The first `c` of `p + [c] + rest` is the one after `p` when `p` has none. */
  lemma {:induction false} IndexOfAfterFree(p: string, c: char, rest: string)
    requires c !in p
    ensures IndexOf(p + [c] + rest, c) == Some(|p|)
    decreases |p|
  {
    if |p| > 0 {
      assert p[0] in p;
      assert forall x :: x in p[1..] ==> x in p;
      assert (p + [c] + rest)[1..] == p[1..] + [c] + rest;
      IndexOfAfterFree(p[1..], c, rest);
    }
  }

  // ---------------------------------------------------------------------
  // Replacing

  /** `s.replace(pat, '')`: every occurrence of `pat` found by a left-to-right
      scan that resumes after each removed occurrence is deleted. */
  function RemoveAll(s: string, pat: string): (r: string)
    requires |pat| > 0
    ensures |r| <= |s|
    ensures Contains(s, pat) ==> |r| < |s|
    ensures !Contains(s, pat) ==> r == s
    decreases |s|
  {
    if |s| < |pat| then
      s
    else if s[..|pat|] == pat then
      assert OccursAt(s, pat, 0);
      RemoveAll(s[|pat|..], pat)
    else
      ShiftContains(s, pat);
      assert s == [s[0]] + s[1..];
      [s[0]] + RemoveAll(s[1..], pat)
  }

  /** An occurrence in `s` that is not at index 0 is an occurrence in `s[1..]`,
      and every occurrence in `s[1..]` is one in `s`. */
  lemma {:induction false} ShiftContains(s: string, pat: string)
    requires |s| > 0
    requires !OccursAt(s, pat, 0)
    ensures Contains(s, pat) <==> Contains(s[1..], pat)
  {
    if Contains(s, pat) {
      var i: nat :| i <= |s| && OccursAt(s, pat, i);
      assert i > 0;
      assert s[1..][i - 1..i - 1 + |pat|] == s[i..i + |pat|];
      assert OccursAt(s[1..], pat, i - 1);
    }
    var t := s[1..];
    if Contains(t, pat) {
      var i: nat :| i <= |t| && OccursAt(t, pat, i);
      assert s[i + 1..i + 1 + |pat|] == t[i..i + |pat|];
      assert OccursAt(s, pat, i + 1);
    }
  }

  // ---------------------------------------------------------------------
  // Case and character mapping

  /** ASCII `lower()` of one character; other characters are left alone. */
  function LowerChar(c: char): (r: char)
    ensures !('A' <= r <= 'Z')
    ensures 'a' <= r <= 'z' ==> 'a' <= c <= 'z' || 'A' <= c <= 'Z'
    ensures !('A' <= c <= 'Z') ==> r == c
    ensures 'A' <= c <= 'Z' ==> 'a' <= r <= 'z'
  {
    if 'A' <= c <= 'Z' then (c as int + 32) as char else c
  }

  /** `s.lower()` restricted to ASCII letters. */
  function Lower(s: string): (r: string)
    ensures |r| == |s|
    ensures forall i :: 0 <= i < |s| ==> r[i] == LowerChar(s[i])
  {
    seq(|s|, i requires 0 <= i < |s| => LowerChar(s[i]))
  }

  /** `s.replace(a, b)` for single characters `a` and `b`. */
  function MapChar(s: string, a: char, b: char): (r: string)
    ensures |r| == |s|
    ensures forall i :: 0 <= i < |s| ==> r[i] == (if s[i] == a then b else s[i])
  {
    seq(|s|, i requires 0 <= i < |s| => if s[i] == a then b else s[i])
  }

  /** `s.replace(c, '')` for a single character `c`. */
  function DropChar(s: string, c: char): (r: string)
    ensures c !in r
    ensures forall x :: x != c ==> (x in r <==> x in s)
    ensures |r| <= |s|
    decreases |s|
  {
    if |s| == 0 then ""
    else if s[0] == c then DropChar(s[1..], c)
    else
      var rest := DropChar(s[1..], c);
      assert forall x :: x in s <==> x == s[0] || x in s[1..];
      [s[0]] + rest
  }

  // ---------------------------------------------------------------------
  // Ordering: Python compares `str` values code point by code point

  /** `a <= b` on Python strings. */
  predicate LexLe(a: string, b: string)
    decreases |a|
  {
    |a| == 0 || (|b| > 0 && (a[0] < b[0] || (a[0] == b[0] && LexLe(a[1..], b[1..]))))
  }

  lemma {:induction false} LexLeRefl(a: string)
    ensures LexLe(a, a)
    decreases |a|
  {
    if |a| > 0 {
      LexLeRefl(a[1..]);
    }
  }

  lemma {:induction false} LexLeTotal(a: string, b: string)
    ensures LexLe(a, b) || LexLe(b, a)
    decreases |a|
  {
    if |a| > 0 && |b| > 0 && a[0] == b[0] {
      LexLeTotal(a[1..], b[1..]);
    }
  }

  lemma {:induction false} LexLeTrans(a: string, b: string, c: string)
    requires LexLe(a, b) && LexLe(b, c)
    ensures LexLe(a, c)
    decreases |a|
  {
    if |a| > 0 && a[0] == b[0] && b[0] == c[0] {
      LexLeTrans(a[1..], b[1..], c[1..]);
    }
  }

  lemma {:induction false} LexLeAntisym(a: string, b: string)
    requires LexLe(a, b) && LexLe(b, a)
    ensures a == b
    decreases |a|
  {
    if |a| > 0 {
      LexLeAntisym(a[1..], b[1..]);
      assert a == [a[0]] + a[1..];
      assert b == [b[0]] + b[1..];
    }
  }

  // ---------------------------------------------------------------------
  // Decimal rendering of counts: `f"{n}"`

  function DigitChar(d: nat): (r: char)
    requires d < 10
    ensures '0' <= r <= '9'
  {
    ('0' as int + d) as char
  }

  function DigitValue(c: char): nat
    requires '0' <= c <= '9'
  {
    c as int - '0' as int
  }

  /** `str(n)` for a natural number. */
  function Decimal(n: nat): (r: string)
    ensures |r| >= 1
    ensures forall i :: 0 <= i < |r| ==> '0' <= r[i] <= '9'
    ensures r[0] == '0' ==> n == 0
    decreases n
  {
    if n < 10 then [DigitChar(n)] else Decimal(n / 10) + [DigitChar(n % 10)]
  }

  /** `int(s)` for a string of decimal digits. */
  function ParseDecimal(s: string): nat
    requires forall i :: 0 <= i < |s| ==> '0' <= s[i] <= '9'
    decreases |s|
  {
    if |s| == 0 then 0 else ParseDecimal(s[..|s| - 1]) * 10 + DigitValue(s[|s| - 1])
  }

  /** Reading a rendered count back gives the count. */
  lemma {:induction false} DecimalRoundTrip(n: nat)
    ensures ParseDecimal(Decimal(n)) == n
    decreases n
  {
    var r := Decimal(n);
    if n >= 10 {
      DecimalRoundTrip(n / 10);
      assert r[..|r| - 1] == Decimal(n / 10);
    }
  }
}

=== FILE: triggers.dfy ===
/**
 Trigger-phrase extraction: the double-quoted phrases of an agent's
 `## Trigger` section, at most four of them, re-quoted and joined by `", "`.

 The phrases are what `re.findall(r'"([^"]+)"', text)` returns: a
 left-to-right scan that, at a quote followed by one or more non-quote
 characters and another quote, takes the characters in between and resumes
 after the closing quote, and otherwise moves on by one character.
 */
module Triggers {
  import opened Strings
  import opened Wrappers

  /** `phrases[:4]` */
  const MaxPhrases: nat := 4

  /** The number of characters before the first `"` of `s` (all of `s` if none). */
  function QuoteFreeRun(s: string): (n: nat)
    ensures n <= |s|
    ensures '"' !in s[..n]
    ensures n < |s| ==> s[n] == '"'
    decreases |s|
  {
    if |s| == 0 || s[0] == '"' then 0 else 1 + QuoteFreeRun(s[1..])
  }

  /** A phrase as the pattern captures it: non-empty and free of `"`. */
  predicate IsPhrase(p: string) {
    |p| > 0 && '"' !in p
  }

  /** `'"' + p + '"'` */
  function Quote(p: string): string {
    "\"" + p + "\""
  }

  /** `re.findall(r'"([^"]+)"', s)` */
  function Phrases(s: string): (ps: seq<string>)
    ensures forall i :: 0 <= i < |ps| ==> IsPhrase(ps[i])
    ensures forall i :: 0 <= i < |ps| ==> Contains(s, Quote(ps[i]))
    decreases |s|
  {
    if |s| == 0 then
      []
    else if s[0] == '"' && 0 < QuoteFreeRun(s[1..]) < |s| - 1 then
      var k := QuoteFreeRun(s[1..]);
      var p := s[1..1 + k];
      var rest := Phrases(s[k + 2..]);
      assert s[..k + 2] == Quote(p);
      assert OccursAt(s, Quote(p), 0);
      ContainsInSuffix(s, k + 2);
      [p] + rest
    else
      var rest := Phrases(s[1..]);
      ContainsInSuffix(s, 1);
      rest
  }

  /** What occurs in a suffix of `s` occurs in `s`. */
  lemma {:induction false} ContainsInSuffix(s: string, d: nat)
    requires d <= |s|
    ensures forall x :: Contains(s[d..], x) ==> Contains(s, x)
  {
    forall x | Contains(s[d..], x)
      ensures Contains(s, x)
    {
      var i: nat :| i <= |s[d..]| && OccursAt(s[d..], x, i);
      assert s[d + i..d + i + |x|] == s[d..][i..i + |x|];
      assert OccursAt(s, x, d + i);
    }
  }

  // ---------------------------------------------------------------------
  // How the scan composes

  /** Text without quotes contributes no phrase and does not disturb what follows. */
  lemma {:induction false} SkipQuoteFree(a: string, t: string)
    requires '"' !in a
    ensures Phrases(a + t) == Phrases(t)
    decreases |a|
  {
    if |a| > 0 {
      assert a[0] in a;
      assert (a + t)[1..] == a[1..] + t;
      SkipQuoteFree(a[1..], t);
    } else {
      assert a + t == t;
    }
  }

  /** A quoted phrase at the front is the first phrase found, and the scan
      resumes right after its closing quote. */
  lemma {:induction false} QuotedFirst(p: string, b: string)
    requires IsPhrase(p)
    ensures Phrases(Quote(p) + b) == [p] + Phrases(b)
  {
    var s := Quote(p) + b;
    assert s[1..] == p + ("\"" + b);
    RunStopsAtQuote(p, b);
    assert s[1..1 + |p|] == p;
    assert s[|p| + 2..] == b;
  }

  /** The run of non-quote characters of `p + '"' + b` is `p`. */
  lemma {:induction false} RunStopsAtQuote(p: string, b: string)
    requires '"' !in p
    ensures QuoteFreeRun(p + ("\"" + b)) == |p|
  {
    var s := p + ("\"" + b);
    assert s[|p|] == '"';
  }

  /** Text without quotes after the end contributes no phrase either, although
      it lengthens the last unterminated run. */
  lemma {:induction false} SkipQuoteFreeTail(t: string, w: string)
    requires '"' !in w
    ensures Phrases(t + w) == Phrases(t)
    decreases |t|
  {
    if |t| == 0 {
      assert t + w == w + "";
      SkipQuoteFree(w, "");
    } else {
      var s := t + w;
      assert s[1..] == t[1..] + w;
      RunWithTail(t[1..], w);
      var k := QuoteFreeRun(t[1..]);
      if t[0] == '"' && 0 < k < |t| - 1 {
        assert s[1..1 + k] == t[1..1 + k];
        assert s[k + 2..] == t[k + 2..] + w;
        SkipQuoteFreeTail(t[k + 2..], w);
        PhraseStep(s, k);
        PhraseStep(t, k);
      } else {
        SkipQuoteFreeTail(t[1..], w);
        NoPhraseStep(s);
        NoPhraseStep(t);
      }
    }
  }

  /** A quote, a run of `k` other characters and a quote yield a phrase, and
      the scan resumes after them. */
  lemma {:induction false} PhraseStep(s: string, k: nat)
    requires |s| > 0 && s[0] == '"' && k == QuoteFreeRun(s[1..]) && 0 < k < |s| - 1
    ensures Phrases(s) == [s[1..1 + k]] + Phrases(s[k + 2..])
  {
  }

  /** Anywhere else the scan moves on by one character. */
  lemma {:induction false} NoPhraseStep(s: string)
    requires |s| > 0 && !(s[0] == '"' && 0 < QuoteFreeRun(s[1..]) < |s| - 1)
    ensures Phrases(s) == Phrases(s[1..])
  {
  }

  /** A quote-free tail changes a run only when the run reached the end. */
  lemma {:induction false} RunWithTail(t: string, w: string)
    requires '"' !in w
    ensures QuoteFreeRun(t) < |t| ==> QuoteFreeRun(t + w) == QuoteFreeRun(t)
    ensures QuoteFreeRun(t) == |t| ==> QuoteFreeRun(t + w) == |t + w|
  {
    var n := QuoteFreeRun(t);
    var s := t + w;
    var m := QuoteFreeRun(s);
    if n < |t| {
      assert s[n] == '"';
    } else {
      assert t == t[..n];
    }
  }

  /** Stripping the section text never changes its phrases: whitespace holds no quote. */
  lemma {:induction false} PhrasesIgnoreStrip(t: string)
    ensures Phrases(Strip(t)) == Phrases(t)
  {
    assert '"' !in Whitespace;
    PhrasesIgnoreStripSet(t, Whitespace);
  }

  /** The same for any set of stripped characters without a quote in it. */
  lemma {:induction false} PhrasesIgnoreStripSet(t: string, cs: set<char>)
    requires '"' !in cs
    ensures Phrases(StripSet(t, cs)) == Phrases(t)
  {
    StripSetSlice(t, cs);
    var i := |t| - |TrimStart(t, cs)|;
    PaddedPhrases(t, cs, StripSet(t, cs), i, i + |StripSet(t, cs)|);
  }

  /** Quote-free padding around a slice contributes no phrase. */
  lemma {:induction false} PaddedPhrases(t: string, cs: set<char>, r: string, i: nat, j: nat)
    requires '"' !in cs
    requires i <= j <= |t| && r == t[i..j]
    requires forall k :: 0 <= k < i ==> t[k] in cs
    requires forall k :: j <= k < |t| ==> t[k] in cs
    ensures Phrases(r) == Phrases(t)
  {
    assert '"' !in t[..i];
    assert '"' !in t[j..];
    assert t == t[..i] + (t[i..j] + t[j..]);
    SkipQuoteFree(t[..i], t[i..j] + t[j..]);
    SkipQuoteFreeTail(t[i..j], t[j..]);
  }

  // ---------------------------------------------------------------------
  // The extractor

  /** Each phrase between double quotes. */
  function QuoteEach(ps: seq<string>): (qs: seq<string>)
    ensures |qs| == |ps|
    ensures forall i :: 0 <= i < |ps| ==> qs[i] == Quote(ps[i])
  {
    seq(|ps|, i requires 0 <= i < |ps| => Quote(ps[i]))
  }

  /** `", ".join(f'"{p}"' for p in ps)`, built phrase by phrase. */
  function QuoteJoin(ps: seq<string>): (r: string)
    ensures r == Join(QuoteEach(ps), ", ")
    decreases |ps|
  {
    if |ps| == 0 then ""
    else if |ps| == 1 then Quote(ps[0])
    else
      var rest := QuoteJoin(ps[1..]);
      assert QuoteEach(ps)[1..] == QuoteEach(ps[1..]);
      Quote(ps[0]) + ", " + rest
  }

  /** Scanning a joined list of phrases finds exactly those phrases, in order. */
  lemma {:induction false} QuoteJoinRoundTrip(ps: seq<string>)
    requires forall i :: 0 <= i < |ps| ==> IsPhrase(ps[i])
    ensures Phrases(QuoteJoin(ps)) == ps
    decreases |ps|
  {
    if |ps| == 1 {
      assert Quote(ps[0]) == Quote(ps[0]) + "";
      QuotedFirst(ps[0], "");
    } else if |ps| > 1 {
      var rest := QuoteJoin(ps[1..]);
      assert Quote(ps[0]) + ", " + rest == Quote(ps[0]) + (", " + rest);
      QuotedFirst(ps[0], ", " + rest);
      SkipQuoteFree(", ", rest);
      QuoteJoinRoundTrip(ps[1..]);
      assert ps == [ps[0]] + ps[1..];
    }
  }

  /** `extract_triggers`, given what the `## Trigger` section search captured
      (`None` when the document has no such section). */
  function ExtractTriggers(section: Option<string>): (r: Option<string>)
    ensures section.None? ==> r.None?
    ensures section.Some? ==> (r.None? <==> Phrases(section.value) == [])
    ensures r.Some? ==>
              var ps := Phrases(section.value);
              Phrases(r.value) == ps[..if |ps| < MaxPhrases then |ps| else MaxPhrases]
    ensures r.Some? ==> 1 <= |Phrases(r.value)| <= MaxPhrases
    ensures r.Some? ==>
              var ps := Phrases(section.value);
              r.value == Join(QuoteEach(ps[..if |ps| < MaxPhrases then |ps| else MaxPhrases]), ", ")
  {
    match section
    case None => None
    case Some(text) =>
      var ps := Phrases(Strip(text));
      PhrasesIgnoreStrip(text);
      if |ps| == 0 then None
      else
        var shown := ps[..if |ps| < MaxPhrases then |ps| else MaxPhrases];
        QuoteJoinRoundTrip(shown);
        Some(QuoteJoin(shown))
  }

  /** A section reading `"foo" or "bar"` yields `"foo", "bar"`: the connecting
      word is dropped and the phrases are re-quoted in order. */
  lemma FooOrBarExample()
    ensures ExtractTriggers(Some(Quote("foo") + " or " + Quote("bar"))) == Some(Quote("foo") + ", " + Quote("bar"))
  {
    var text := Quote("foo") + " or " + Quote("bar");
    FooOrBarPhrases();
    FooOrBarStripped();
    assert Strip(text) == text;
    var ps := ["foo", "bar"];
    assert ps[..2] == ps && ps[1..] == ["bar"];
    assert QuoteJoin(ps) == Quote("foo") + ", " + Quote("bar");
  }

  lemma FooOrBarPhrases()
    ensures Phrases(Quote("foo") + " or " + Quote("bar")) == ["foo", "bar"]
  {
    var text := Quote("foo") + " or " + Quote("bar");
    assert text == Quote("foo") + (" or " + (Quote("bar") + ""));
    QuotedFirst("bar", "");
    SkipQuoteFree(" or ", Quote("bar") + "");
    QuotedFirst("foo", " or " + (Quote("bar") + ""));
  }

  lemma FooOrBarStripped()
    ensures Strip(Quote("foo") + " or " + Quote("bar")) == Quote("foo") + " or " + Quote("bar")
  {
    var text := Quote("foo") + " or " + Quote("bar");
    assert "" + text + "" == text;
    StripSetExact("", text, "", Whitespace);
  }
}

=== FILE: wrappers.dfy ===
/** The optional-value wrapper used for Python's `None` results. */
module Wrappers {

  /** `None` stands for Python's `None`; `Some(v)` for a present value. */
  datatype Option<+T> = None | Some(value: T)

  /** The present values of `xs`, in order: the list a loop builds when it
      appends each result that is not `None`. */
  function Present<T>(xs: seq<Option<T>>): (r: seq<T>)
    ensures |r| <= |xs|
    ensures forall i :: 0 <= i < |r| ==> Some(r[i]) in xs
    decreases |xs|
  {
    if |xs| == 0 then []
    else
      var rest := Present(xs[1..]);
      assert forall x :: x in xs[1..] ==> x in xs;
      match xs[0]
      case None => rest
      case Some(v) => [v] + rest
  }

  /** Keeping the present values commutes with concatenation: each list keeps
      its own values, in order, and nothing is repeated. */
  lemma {:induction false} PresentAppend<T>(a: seq<Option<T>>, b: seq<Option<T>>)
    ensures Present(a + b) == Present(a) + Present(b)
    decreases |a|
  {
    if |a| == 0 {
      assert a + b == b;
    } else {
      assert (a + b)[0] == a[0];
      assert (a + b)[1..] == a[1..] + b;
      PresentAppend(a[1..], b);
    }
  }

  /** A single entry is kept exactly when it is present. */
  lemma PresentSingle<T>(x: Option<T>)
    ensures Present([x]) == if x.Some? then [x.value] else []
  {
    assert [x][1..] == [];
  }

  /** Every present value is kept. */
  lemma {:induction false} PresentComplete<T>(xs: seq<Option<T>>, j: nat)
    requires j < |xs| && xs[j].Some?
    ensures xs[j].value in Present(xs)
    decreases |xs|
  {
    if j > 0 {
      assert xs[1..][j - 1] == xs[j];
      PresentComplete(xs[1..], j - 1);
    }
  }

  /** Nothing is kept exactly when every entry is `None`. */
  lemma {:induction false} PresentEmpty<T>(xs: seq<Option<T>>)
    ensures |Present(xs)| == 0 <==> forall j :: 0 <= j < |xs| ==> xs[j].None?
  {
    if exists j :: 0 <= j < |xs| && xs[j].Some? {
      var j :| 0 <= j < |xs| && xs[j].Some?;
      PresentComplete(xs, j);
    }
    if |Present(xs)| > 0 {
      assert Some(Present(xs)[0]) in xs;
    }
  }
}
